=== FILE: README.md ===
# universal-factory, modelled in Dafny

This project models the engine of the PHP library `universal-factory`, a
Laravel-style object factory for plain classes. A factory builder carries a
count, an ordered list of state layers, a shared collection of after-making
callbacks and a construction strategy. `make()` does the following:

- It folds the layers over the factory's `definition()` with `array_merge`.
- It expands the resulting attribute array in key order. Nested factories are
  made and generator closures are invoked.
- It constructs the target class by array, by reflection or through the
  container.
- Once the whole batch is built, it runs the after-making callbacks over the
  instances, instance by instance. A callback may change the instance it is
  given, or throw.

The `HasUniversalFactory` trait gives a model class a static
`factory($count, $state)` entry point. That entry point finds the right
factory class for the model and applies the count and state it was given.

## Modules

- `Wrappers` (`wrappers.dfy`): the `Option` and `Result` types.
- `Attributes` (`attributes.dfy`): attribute values and PHP string-keyed arrays
  as ordered `seq<(string, Value)>`. `Put` and `Merge` model `array_merge`.
- `Environment` (`environment.dfy`): everything the engine only calls into, as
  the fields of a `World` value:
  - the declared classes and their constructor parameter names;
  - the callable global functions and the invokable classes;
  - the factory classes;
  - `definition()`, callable state layers, generator closures and nested
    factories' `make()`;
  - what a callable state throws when its carry is a callable definition;
  - the class-name guesser;
  - whether a constructor (or the container) throws on what it is given;
  - what an after-making callback does to an instance, or throws.
- `Composer` (`composer.dfy`): `getRawAttributes` and `expandAttributes`.
- `Naming` (`naming.dfy`): `class_basename` and `resolveFactoryName`.
- `Callbacks` (`callbacks.dfy`): `callAfterMaking`, the walk of the callbacks
  over a batch, and a reference reading of it in which each instance goes
  through its own callbacks alone.
- `Batch` (`batch.dfy`): the control flow of `make()` over any way of making
  one instance. It builds the batch, then runs the callbacks, and records
  everything that happened as a trace of `Built` and `Called` events.
- `Factory` (`factory.dfy`): the builder record and its operations:
  `new`, `configure`, `newInstance`, `count`, `state`, `afterMaking`,
  `useConstructionStrategy`, `make`, `makeInstance`, `newClass`,
  `resolveClassParameters`, `className` and `factoryForClass`.
- `HasUniversalFactory` (`has_universal_factory.dfy`): `__callStatic`,
  `getUniversalFactory` and `newFactory`.
- `Scenarios` (`scenarios.dfy`): a `Point(x, y)` model class with definition
  `['x' => 0, 'y' => 0]`. `Point::factory()->make()` is followed from the
  static call to the instance.

## Modelling choices

- **Randomness.** Each `World` function takes a draw index. Instance `k` of a
  batch made from draw `d` uses draw `d + k`, both to be built and for its
  callbacks, so instances are made and called back independently but
  deterministically.
- **Callback collection.** `afterMaking` pushes onto a `Collection` object that
  `newInstance` hands on to every derived builder
  (`src/UniversalFactory.php:244`). The model keeps all such collections in a
  `Store` (a sequence of callback lists), and a builder holds the index of its
  own. `new` allocates a fresh entry.
- **Callbacks.** A callback is an id. `World.callback` gives what running it
  on an instance does: the instance's new state, or the exception it throws.
  The PHP callback mutates the object in place and its return value is
  ignored. The model threads the instances' states through the walk, so
  `make()` returns them as the callbacks left them. A PHP callback can change
  an object's state but never its class. `Callbacks.CallbacksKeepClass`
  states this of a `World`, and the class results assume it.
- **Trace.** `make()` returns a `Run`: its result (the instance, the
  collection or the exception) and the events up to that point, in order.
  `Built(k, inst)` means instance `k` was constructed. `Called(h, k)` means
  callback `h` was started on instance `k`.
- **Construction.** `new $class(...)` and `app()->makeWith(...)` become the
  instance they were asked for: the class and its arguments, or the class and
  attributes handed to the container. `World.refuses` says whether that
  constructor call throws, and with what.
- **Construction strategy.** `newInstance` uses `new static`, which
  re-initialises `$classConstructionStrategy` to the class default
  (`src/UniversalFactory.php:26`; a subclass may override it). So `Builder`
  carries the strategy, and every derived builder resets it to the factory
  class's `defaultStrategy`.
- **Errors.** PHP exceptions and TypeErrors are `Failure` values of a `Result`.

Some behaviours of the code are easy to expect otherwise. The model follows
the code:

- **Count.** A count of 0 or any negative count makes ONE bare instance, as
  the null count does (`src/UniversalFactory.php:161`). It does not make an
  empty collection.
- **Builders are not immutable.**
  - `afterMaking` mutates the receiver's collection and returns the same
    builder. That collection is shared with every builder derived from it.
  - `useConstructionStrategy` also mutates in place, and the setting is lost
    on the next `state`, `count` or `make` with overrides.
- **Generator input.** A generator receives the array as it stands when its
  key is reached: earlier keys are already expanded, later keys are still raw.
  It does not receive the raw map.
- **Generator results are not expanded.** A generator that returns a nested
  factory returns it unmade.
- **Nested factory results.** A nested factory is replaced by whatever its
  `make()` returns. With a count that is a collection.
- **Callable definitions fail.** A `definition()` that returns a callable
  always fails, and the engine never invokes it. `$state($carry)` is
  evaluated before `array_merge` (`src/UniversalFactory.php:205`). So a
  callable first state is still run with the callable as its carry, and if
  it throws, its exception is what `make()` throws. That is the
  `layerOnCallable` field of `World`. Otherwise `array_merge` rejects the
  callable. With no layer, the `array` return type of `getRawAttributes`
  (`src/UniversalFactory.php:197`) does.
- **Callbacks run late.** No callback runs before every instance of the batch
  has been built, and an instance that fails to be made stops `make()` before
  any callback runs.

## Model

| member | source | states |
|---|---|---|
| Attributes.Put | src/UniversalFactory.php:205 | Writing one key of `array_merge`: an existing key keeps its place, and a new key goes last. |
| Attributes.PutLookup | src/UniversalFactory.php:205 | After writing `k`, `k` reads as the new value and every other key reads as before. |
| Attributes.Merge | src/UniversalFactory.php:205 | `array_merge($a, $b)` starts with the keys of `$a`, in their order. |
| Attributes.MergeKeys | src/UniversalFactory.php:205 | `array_merge($a, $b)` has the keys of `$a` in their order, followed by the keys of `$b` that `$a` lacks, in their order (checked against the reference `NewKeys`). |
| Attributes.MergeKeysMembers | src/UniversalFactory.php:205 | A key is in `array_merge($a, $b)` exactly when it is in `$a` or in `$b`. |
| Attributes.MergeWellKeyed | src/UniversalFactory.php:205 | Merging two proper arrays (distinct keys) gives a proper array. |
| Attributes.MergeLookup | src/UniversalFactory.php:205 | In `array_merge($a, $b)` a key of `$b` reads as `$b`'s value; any other key reads as `$a`'s. |
| Composer.ToLayer | src/UniversalFactory.php:117-126 | `state()` keeps a callable as the layer. It wraps an array in a closure returning that array, and wraps any other value in a closure returning that non-array. |
| Composer.ArrayStateIgnoresCarry | src/UniversalFactory.php:121-123 | The closure wrapped around an array returns that array whatever it is given. |
| Composer.Fold | src/UniversalFactory.php:199-206 | A successful fold met no non-array layer. A non-array first layer fails with the TypeError of `array_merge`. |
| Composer.RawAttributes | src/UniversalFactory.php:197-206 | The raw attributes are the left fold of the layers over the definition. A callable definition always fails. A callable first state still runs on it, and its exception propagates. Otherwise the error is the TypeError of `array_merge` or of the `array` return type. |
| Composer.FoldAppend | src/UniversalFactory.php:199-206 | Appending a layer adds exactly one `array_merge($carry, $state($carry))` step at the end of the fold, applied to what the earlier layers produced. |
| Composer.FoldKeepsSeedKeys | src/UniversalFactory.php:199-206 | The definition's keys stay first, in their order, with any new keys after them. A proper array stays proper. |
| Composer.FoldFixedLookup | src/UniversalFactory.php:199-206 | Folding array layers never fails. Each key reads as written by the last layer mentioning it, or as in the definition if no layer does (checked against the reference `LastWriter`). |
| Composer.GeneratorGuard | src/UniversalFactory.php:220-225 | The guard invokes exactly closures and objects of invokable classes. Strings (even function names), arrays and enum cases (even invokable ones) are never invoked. |
| Composer.ExpandValue | src/UniversalFactory.php:216-229 | Plain values pass through unchanged. A value that is not a nested factory is invoked on the current array when it is a generator (a closure, or an object of an invokable class), and its result is kept as is; otherwise it is kept. A nested factory whose `make()` throws fails the expansion. |
| Composer.ExpandFrom | src/UniversalFactory.php:214-233 | The walk keeps keys and order and leaves earlier positions alone. Each later value is its raw value expanded against the array as it stood when the key was reached. |
| Composer.ExpandAttributes | src/UniversalFactory.php:212-234 | A successful expansion keeps every key in place. Each value is expanded against the earlier keys' expanded values and the later keys' raw ones. |
| Composer.ExpandFromComplete | src/UniversalFactory.php:212-234 | Any array meeting that description is exactly what the walk returns. |
| Composer.ExpandAttributesCharacterized | src/UniversalFactory.php:212-234 | Expansion returns `out` exactly when `out` is such an in-place expansion of the raw array (both directions). When it throws, the exception is that of the first key whose expansion failed, every earlier key having been expanded and written back. |
| Composer.ExpandFromFails | src/UniversalFactory.php:214-232 | A failing walk from position `i` failed at one key. Every key before it, from `i` on, expanded against the array as it then stood, and that key's expansion threw the walk's exception. |
| Composer.PlainAttributesExpandToThemselves | src/UniversalFactory.php:212-234 | An array of plain values expands to itself. |
| Composer.SubFactoryIsMade | src/UniversalFactory.php:216-225 | A nested factory becomes the collection or the instance its `make()` returns. An instance of an invokable class is then invoked on the current array, and the expansion is whatever that call returns. A failing `make()` fails the expansion. |
| Callbacks.ScheduleLength | src/UniversalFactory.php:140-144 | A batch of `n` instances with `h` callbacks makes `n·h` callback calls in all. |
| Callbacks.ScheduleOrder | src/UniversalFactory.php:140-144 | Call `i·h + j` is callback `j` on instance `i` (instance-major order). |
| Callbacks.ApplyHooks | src/UniversalFactory.php:141-143 | One instance's callbacks run in registration order. A successful run makes every call, and a throw ends it after at least one call. |
| Callbacks.ApplyHooksKeepsClass | src/UniversalFactory.php:141-143 | When each callback keeps its object's class, so does the whole run of an instance's callbacks. |
| Callbacks.RunCalls | src/UniversalFactory.php:140-144 | A walk over a list of calls keeps the number of instances. It starts every call unless one throws, and a throw comes from a started call. |
| Callbacks.RunCallsFrame | src/UniversalFactory.php:142 | A callback is given only its instance: a walk leaves alone every instance none of its calls names. |
| Callbacks.RoundRun | src/UniversalFactory.php:141-143 | Running the round of instance `k` inside the batch does to `k` exactly what its callbacks do to it alone at its own draw: same calls, same exception, same final state, and no other instance changes. |
| Callbacks.NoCallbacksRunNothing | src/UniversalFactory.php:138-145 | With no callbacks registered, `callAfterMaking` makes no call and leaves every instance as it was. |
| Callbacks.ApplyAllCharacterized | src/UniversalFactory.php:138-145 | The reference reading succeeds exactly when each instance's callbacks succeed on it, instance `k` at draw `draw + k`. Each instance then ends as its own callbacks left it, and otherwise the exception is the first failing instance's. |
| Callbacks.NextRound | src/UniversalFactory.php:140-144 | One round adds at most `h` calls, exactly `h` when it does not throw, and changes nothing once the walk has thrown. |
| Callbacks.RunRounds | src/UniversalFactory.php:138-145 | `callAfterMaking` starts a prefix of the schedule: all of it when nothing throws, and at least one call when something does. |
| Callbacks.RunRoundsFrame | src/UniversalFactory.php:140-144 | The rounds of the first `n` instances leave every later instance alone. |
| Callbacks.NextRoundAgrees | src/UniversalFactory.php:140-144 | One round agrees with one step of the reference reading, given that the walks so far agree. |
| Callbacks.RoundsApplyAll | src/UniversalFactory.php:138-145 | `callAfterMaking` agrees with the reference reading: the same final instances, or the same exception. |
| Batch.BatchSize | src/UniversalFactory.php:161-167 | A null or non-positive count builds one instance, and a positive count builds that many. |
| Batch.Build | src/UniversalFactory.php:167 | Instance `k` of the batch is the `k`-th `makeInstance()`. The batch stops at the first instance that throws, and reports its exception. |
| Batch.BuildOne | src/UniversalFactory.php:162 | A batch of one is the one instance made, or its exception. |
| Batch.SingleWithoutHooks | src/UniversalFactory.php:161-165 | With no callbacks, `make()` for a single instance returns that instance and records one `Built` event, or throws and records nothing. |
| Batch.BatchEvents | src/UniversalFactory.php:161-171 | The trace is the instances built, in order, followed only by callback calls. |
| Batch.CallbacksFollowConstruction | src/UniversalFactory.php:167-169 | After any `Called` event there is no `Built` event. If any callback ran, the trace starts with every instance of the batch built, in index order. |
| Batch.BatchCount | src/UniversalFactory.php:161-171 | A successful `make()` returns one bare instance for a null or non-positive count, and a collection of exactly `count` instances otherwise. It throws whenever an instance of the batch fails to be made. |
| Batch.BatchStopsAtFailure | src/UniversalFactory.php:167 | When instance `k` is the first that fails, `make()` throws its exception, and the trace holds only the `k` earlier constructions: no callback ran. |
| Batch.BatchAppliesCallbacks | src/UniversalFactory.php:162-171 | With every instance built, `make()` succeeds exactly when each instance's callbacks succeed on it (instance `k` at its own draw `draw + k`), and returns the instances as their callbacks left them. Otherwise it throws what the first failing instance's callbacks threw. |
| Batch.BatchKeepsClass | src/UniversalFactory.php:161-171 | When every instance made is of one class and callbacks keep classes, a successful `make()` made every instance of the batch, and each one it returns is of that class. |
| Batch.BatchCallOrder | src/UniversalFactory.php:138-171 | A `make()` that returns records `n` constructions, then all `n·h` calls in schedule order: callback `j` on instance `i` is event `n + i·h + j`. |
| Batch.ConstructionIgnoresHooks | src/UniversalFactory.php:161-171 | Two batches that differ only in their callbacks have the same construction events at the same positions. |
| Factory.NewInstance | src/UniversalFactory.php:239-247 | `newInstance` carries the factory class, the callback collection and recycle. It sets the given count and states, and resets the strategy to the class default. |
| Factory.Count | src/UniversalFactory.php:107-110 | `count($n)` differs from its receiver only in the count. The strategy goes back to the class default; states, callbacks and recycle are carried over. |
| Factory.State | src/UniversalFactory.php:117-126 | `state($s)` appends exactly one layer after the existing ones. Only the strategy reset changes anything else. |
| Factory.Configure | src/UniversalFactory.php:99-102 | The base `configure()` returns the builder it was called on. |
| Factory.New | src/UniversalFactory.php:91-94 | `new($attributes)` gives a builder with no count, the attributes as its only layer and a fresh, empty callback collection. |
| Factory.AfterMaking | src/UniversalFactory.php:128-133 | The same builder is returned. Its collection gains the callback at the end, and every other collection is unchanged. |
| Factory.UseConstructionStrategy | src/UniversalFactory.php:389-394 | The builder gets the given strategy, and nothing else about it changes. |
| Factory.ClassName | src/UniversalFactory.php:292-311 | An explicit `$class` takes precedence. Otherwise the resolver's answer is used, and failure to find one fails. |
| Factory.MakeKeepsClass | src/UniversalFactory.php:151-172 | When callbacks keep each object's class, every instance a successful `make()` returns (one, or each of the collection) is of the class `className()` gives, with or without overrides. |
| Factory.MakeWithAttributesIsState | src/UniversalFactory.php:155-159 | `make($attributes)` with non-empty attributes, an array or a callable, is `state($attributes)->make()`. With empty attributes it is `make()`. |
| Factory.DerivedBuildersTargetSameClass | src/UniversalFactory.php:292-311 | Builders derived by `state`, `count` or `useConstructionStrategy` construct the same class as the original. |
| Factory.ResolveClassParameters | src/UniversalFactory.php:278-285 | One argument per constructor parameter, in parameter order: the attribute of that name, or null when it is absent. |
| Factory.ExtraAttributesIgnored | src/UniversalFactory.php:278-285 | Attributes that name no constructor parameter make no difference to the arguments. |
| Factory.NewClass | src/UniversalFactory.php:258-266 | A constructed instance is of the class `className()` names. |
| Factory.NewClassByStrategy | src/UniversalFactory.php:258-266 | Array-based passes the whole array as the only argument. Reflection-based passes the resolved parameters. Container-based hands class and attributes to the container. Construction succeeds exactly when the class name resolves, the class (and, by reflection, its constructor) exists and the constructor or container does not throw. |
| Factory.MakeInstance | src/UniversalFactory.php:181-192 | A callable definition fails with the exception `getRawAttributes` throws. A made instance is of the class `className()` names. |
| Factory.MakeInstanceIgnoresCount | src/UniversalFactory.php:181-192 | The count plays no part in making one instance. |
| Factory.Make | src/UniversalFactory.php:155-172 | With or without overrides, no instance is built once a callback has run. Callbacks run only after every instance of the batch has been built. |
| Factory.MakeCount | src/UniversalFactory.php:161-171 | A successful `make()` returns one bare instance for a null or non-positive count, and a collection of exactly `count` instances otherwise. It throws whenever an instance fails to be made. |
| Factory.MakeStopsAtFailedInstance | src/UniversalFactory.php:167 | The first instance that fails to be made ends `make()` with its exception. Only the earlier instances were built, and no callback ran. |
| Factory.MakeAppliesCallbacks | src/UniversalFactory.php:161-171 | With every instance made, `make()` succeeds exactly when each instance's callbacks succeed on it, instance `k` at its own draw. It returns the instances as the callbacks left them, and otherwise throws the first failing callback's exception. |
| Factory.MakeRunsCallbacksInstanceMajor | src/UniversalFactory.php:138-171 | A `make()` that returns built its `n` instances in order, then ran all `n·h` callback calls instance by instance, each instance seeing every callback in registration order. |
| Factory.SingleInstanceCallbacks | src/UniversalFactory.php:161-165 | A single instance sees each callback exactly once, in registration order. |
| Factory.ConstructionIgnoresCallbacks | src/UniversalFactory.php:161-171 | The construction events of `make()` do not depend on the registered callbacks. |
| Factory.NonPositiveCountIsNull | src/UniversalFactory.php:161-165 | A count of 0 or below gives the same result as a null count. |
| Factory.OverridesAreLastLayer | src/UniversalFactory.php:157-159 | `make($overrides)` is `state($overrides)->make()`. The overrides win on every key they name, and every other key keeps its earlier value. |
| Factory.DerivingForgetsStrategy | src/UniversalFactory.php:389-394 | A strategy set with `useConstructionStrategy` is lost by `state()`, `count()` and `make()` with overrides, which all go back to the class default. |
| Factory.DerivedBuildersShareCallbacks | src/UniversalFactory.php:239-247 | A callback added through a builder derived by `state`/`count` is seen by the original builder. |
| Factory.FactoryForClass | src/UniversalFactory.php:337-342 | `factoryForClass` is `new()` on the resolved factory name. It fails when that is not a factory class. |
| Factory.FactoryForClassFindsFirstCandidate | src/UniversalFactory.php:337-387 | With the default resolver, `factoryForClass` instantiates the first existing candidate factory, and fails when no candidate exists. |
| Naming.ClassBasename | src/UniversalFactory.php:366 | The short name has no backslash. It is a suffix of the class name and is either the whole name or preceded by a backslash. |
| Naming.BasenameAfterSeparator | src/UniversalFactory.php:366 | The short name of `Prefix\Short` is `Short`. |
| Naming.ResolveFactoryName | src/UniversalFactory.php:362-387 | A configured resolver decides alone. Otherwise the result exists or is the suffixed name in the factories' namespace, so resolution never fails. |
| Naming.DefaultResolverPicksFirstExisting | src/UniversalFactory.php:364-384 | The default resolver returns the first existing candidate among `ns.short`, `ns.short.'Factory'` and `className.'Factory'`, and `ns.short.'Factory'` when none exists. |
| Naming.SameNamespaceFactoryFound | tests/UniversalFactoryTest.php:105-111 | A factory beside its model, with nothing in the factories' namespace, is found. |
| HasUniversalFactory.NewFactory | src/Traits/HasUniversalFactory.php:50-57 | With `$factory` set, the result is that factory's `new()`; otherwise it is null. |
| HasUniversalFactory.GetUniversalFactory | src/Traits/HasUniversalFactory.php:35-43 | The builder comes from the declared factory or, failing that, the resolved one, with a fresh callback collection, and it succeeds exactly when that factory exists. A numeric first argument is the count, else the count is null. An array or callable first argument is the state, else the second argument is. Exactly one layer is appended. |
| HasUniversalFactory.DeclaredFactoryIgnoresResolution | src/Traits/HasUniversalFactory.php:38 | A model that declares its factory gets it whatever the configuration and the model's name: name resolution is only the fallback. |
| HasUniversalFactory.CallStatic | src/Traits/HasUniversalFactory.php:15-26 | Only the configured method name dispatches (with defaults null and `[]`). Any other name is `BadMethodCallException`. |
| HasUniversalFactory.CallStaticArguments | src/Traits/HasUniversalFactory.php:21-35 | Arguments after the second are ignored, and missing ones default to null and `[]`. |
| HasUniversalFactory.ArrayFirstArgumentIsState | tests/UniversalFactoryTest.php:42-50 | `Model::factory([...])` has no count, and the array is its last layer. The second argument is ignored. |
| HasUniversalFactory.NumericFirstArgumentIsCount | src/Traits/HasUniversalFactory.php:41-42 | `Model::factory(5, $state)` has count 5, and `$state` is its last layer. |
| HasUniversalFactory.ArrayOverRaw | src/UniversalFactory.php:197-206 | A definition overridden by one array layer folds without failing. Each key the array names reads the array's value, and every other key reads the definition's. |
| HasUniversalFactory.ArrayArgumentOverridesDefinition | tests/UniversalFactoryTest.php:42-50 | `Model::factory($m)` succeeds exactly when the model's factory exists. Its raw attributes then read `$m`'s value on every key of `$m`, and the definition's value on every other key. |
| Scenarios.PointConstructed | src/UniversalFactory.php:265 | Reflection builds `Point(x, y)` from the attributes `x` and `y`. |
| Scenarios.MakesPoint | src/UniversalFactory.php:161-165 | A `Point` builder with no count and no callbacks returns one `Point` and records one construction. |
| Scenarios.DefaultsMakeOrigin | src/Traits/HasUniversalFactory.php:15-43 | `Point::factory()->make()`, dispatched through the static call, builds `Point(0, 0)`. |
| Scenarios.StateOverridesOneKey | tests/UniversalFactoryTest.php:52-59 | `make(['x' => 5])` builds `Point(5, 0)`: the override wins and the other key keeps its definition value. `state(['x' => 5])->make()` builds the same. |
| Scenarios.GeneratorReadsSibling | src/UniversalFactory.php:215-229 | A generator for `x` reading `y` sees the sibling value and is replaced by its result. |
| Scenarios.SecondInstanceCallbackThrows | src/UniversalFactory.php:138-171 | Two equal instances meet a random callback independently: in a batch of two, the callback passes on instance 0 and throws on instance 1, and `make()` throws after both calls. This is the shape of the random callback at tests/Examples/UserInfoFactory.php:30. |

## Left out

- CONTAINER_BASED construction (`app()->makeWith`) is recorded as the class and
  attributes handed to the container. What the container builds is not
  modelled; whether it throws is `World.refuses`.
- Constructors: an instance is the class and the arguments it was given.
  What a constructor does with them is not modelled. Whether it throws (a
  TypeError on a null argument, an ArgumentCountError, its own exception) is
  the `refuses` field of `World`.
- Callbacks: a callback changes only the instance it is given. A PHP closure
  can also reach other objects (another instance of the batch, objects a
  container shares). The model does not follow such side effects.
- `withFaker` and faker data: randomness is the draw index passed to the
  `World` functions. All callbacks of one instance share that instance's
  draw. So a callback registered twice, and given the same object state
  twice within one instance's round, answers the same both times.
- `config()` reads, the constructor's namespace reset and the static setter
  `useNamespace`. These are the `namespace` and `methodName` fields of the
  `Config` parameter.
- `$factoryNameResolver` (src/UniversalFactory.php:55) has no setter in the
  engine; a subclass assigns it. Whatever it holds is the optional
  `factoryNameResolver` field of `Config`.
- `guessClassNamesUsing` (src/UniversalFactory.php:318-321) stores
  `$classNameResolver`, which `className()` prefers (:294). That callback,
  and otherwise the default guesser with `appNamespace()` (reflection over
  loaded classes), are together the `guessClassName` field of `World`.
- `Closure::bindTo`: it only affects PHP scoping, so a layer is a function of
  the accumulated array.
- `array_merge` renumbering of integer keys: attribute arrays have string keys
  only.
- `recycle` is carried along but never read by the engine.
- The command, archetype driver, service provider, facade and configuration
  file are glue without engine logic.
- Subclass `configure()` overrides: the base `configure()` is the identity.
- Factory.AfterMaking: the object identity of the returned builder is not
  modelled. The model returns an equal builder and the updated collection
  store.
- Factory.UseConstructionStrategy: the in-place mutation is modelled as a
  builder with the new strategy. Aliases of the same PHP object are not
  modelled.
- Naming.ClassBasename: a class name ending in a backslash gives the empty
  name. Real class names never end that way.
- Composer.GeneratorGuard: callable arrays (`[$object, 'method']`) are not
  modelled, because they need integer keys.
- HasUniversalFactory.GetUniversalFactory: numeric strings and floats as the
  count argument are not modelled; only integer, array, callable and null
  arguments are.
- Factory.Make: `empty()` is modelled for null, 0 and the empty array.
  PHP's other empty values (`''`, `'0'`, `false`) are not argument kinds here.

=== FILE: attributes.dfy ===
/** PHP values as the factory engine sees them, and the ordered string-keyed
    arrays ("attribute maps") it folds and expands. */
module Attributes {
  import opened Wrappers

  /** An attribute value. The engine only distinguishes values by the tests
      it applies to them: is it a sub-factory, is it callable, is it a
      string, an array or an enum case. */
  datatype Value =
    | Null
    | Data(n: int)                              // int, float, bool, DateTime, ...
    | Str(s: string)
    | Arr(entries: seq<(string, Value)>)
    | EnumCase(enumName: string, caseName: string)
    | Gen(id: nat)                              // a Closure (or other non-enum callable object)
    | Sub(id: nat)                              // a UniversalFactory builder
    | Obj(inst: Instance)                       // an object a factory built
    | Coll(items: seq<Instance>)                // a Collection a factory built

  /** What a construction strategy produced: a `new $class(...$args)` call, or
      a request to the container to build `cls` overriding parameters by name. */
  datatype Instance =
    | Constructed(cls: string, args: seq<Value>)
    | Resolved(cls: string, overrides: seq<(string, Value)>)

  /** The result of `make()`: one bare instance, or a collection of them. */
  datatype Made = One(inst: Instance) | Many(items: seq<Instance>)

  /** A PHP array with string keys, in insertion order. */
  type AttrMap = seq<(string, Value)>

  /** A value passed to `state()`, `make()` or the static factory method. */
  datatype Arg = ANull | ANum(n: int) | AMap(m: AttrMap) | ACallable(id: nat)

  /** The keys of `m`, in order. */
  function Keys(m: AttrMap): (ks: seq<string>)
    ensures |ks| == |m|
    ensures forall i :: 0 <= i < |m| ==> ks[i] == m[i].0
  {
    if |m| == 0 then [] else [m[0].0] + Keys(m[1..])
  }

  /** A PHP array never holds the same key twice. */
  ghost predicate WellKeyed(m: AttrMap) {
    forall i, j :: 0 <= i < j < |m| ==> m[i].0 != m[j].0
  }

  /** `$m[$k]` (or absence). */
  function Lookup(m: AttrMap, k: string): (r: Option<Value>)
    ensures r.Some? <==> k in Keys(m)
  {
    if |m| == 0 then None
    else if m[0].0 == k then Some(m[0].1)
    else Lookup(m[1..], k)
  }

  /** `$m[$k] = $v`: an existing key keeps its position, a new key goes last. */
  function Put(m: AttrMap, k: string, v: Value): (r: AttrMap)
    ensures Keys(r) == if k in Keys(m) then Keys(m) else Keys(m) + [k]
    decreases |m|
  {
    if |m| == 0 then [(k, v)]
    else if m[0].0 == k then
      var r := [(k, v)] + m[1..];
      assert r[1..] == m[1..];
      r
    else
      var r := [m[0]] + Put(m[1..], k, v);
      assert r[1..] == Put(m[1..], k, v);
      r
  }

  /** After `$m[$k] = $v`, `$m[$k]` is `$v` and every other key reads as before. */
  lemma {:induction false} PutLookup(m: AttrMap, k: string, v: Value, k': string)
    ensures Lookup(Put(m, k, v), k') == if k' == k then Some(v) else Lookup(m, k')
    decreases |m|
  {
    if |m| > 0 && m[0].0 != k {
      PutLookup(m[1..], k, v, k');
      var r := Put(m, k, v);
      assert r[0] == m[0] && r[1..] == Put(m[1..], k, v);
    }
  }

  /** The keys of `ks` that are not in `seen`, in the order of `ks`. */
  function NewKeys(seen: seq<string>, ks: seq<string>): seq<string>
    decreases |ks|
  {
    if |ks| == 0 then []
    else if ks[0] in seen then NewKeys(seen, ks[1..])
    else [ks[0]] + NewKeys(seen + [ks[0]], ks[1..])
  }

  /** `array_merge($a, $b)` for string-keyed arrays: every entry of `b` is
      written over `a` in turn. */
  function Merge(a: AttrMap, b: AttrMap): (r: AttrMap)
    ensures |a| <= |r| && Keys(r)[..|a|] == Keys(a)
    decreases |b|
  {
    if |b| == 0 then a
    else
      var a' := Put(a, b[0].0, b[0].1);
      var r := Merge(a', b[1..]);
      assert Keys(r)[..|a|] == Keys(r)[..|a'|][..|a|];
      r
  }

  lemma {:induction false} PutWellKeyed(m: AttrMap, k: string, v: Value)
    requires WellKeyed(m)
    ensures WellKeyed(Put(m, k, v))
  {
    var r := Put(m, k, v);
    forall i, j | 0 <= i < j < |r|
      ensures r[i].0 != r[j].0
    {
      assert Keys(r)[i] == r[i].0 && Keys(r)[j] == r[j].0;
      if k !in Keys(m) && j == |m| {
        assert Keys(m)[i] == m[i].0;
      } else {
        assert Keys(m)[i] == m[i].0 && Keys(m)[j] == m[j].0;
      }
    }
  }

  lemma {:induction false} NewKeysMembers(seen: seq<string>, ks: seq<string>, k: string)
    ensures k in NewKeys(seen, ks) <==> k in ks && k !in seen
    decreases |ks|
  {
    if |ks| > 0 {
      NewKeysMembers(seen, ks[1..], k);
      NewKeysMembers(seen + [ks[0]], ks[1..], k);
      assert ks == [ks[0]] + ks[1..];
    }
  }

  /** Merging keeps every key of `a` where it was and appends the keys that
      only `b` has, in `b`'s order. */
  lemma {:induction false} MergeKeys(a: AttrMap, b: AttrMap)
    ensures Keys(Merge(a, b)) == Keys(a) + NewKeys(Keys(a), Keys(b))
    decreases |b|
  {
    if |b| > 0 {
      var k0 := b[0].0;
      var a' := Put(a, k0, b[0].1);
      var rest := Keys(b[1..]);
      assert Merge(a, b) == Merge(a', b[1..]);
      MergeKeys(a', b[1..]);
      assert Keys(b) == [k0] + rest;
      NewKeysStep(Keys(a), k0, rest);
      if k0 !in Keys(a) {
        var tail := NewKeys(Keys(a) + [k0], rest);
        assert (Keys(a) + [k0]) + tail == Keys(a) + ([k0] + tail);
      }
    }
  }

  /** One step of NewKeys. */
  lemma NewKeysStep(seen: seq<string>, k: string, ks: seq<string>)
    ensures NewKeys(seen, [k] + ks) ==
      if k in seen then NewKeys(seen, ks) else [k] + NewKeys(seen + [k], ks)
  {
    assert ([k] + ks)[0] == k && ([k] + ks)[1..] == ks;
  }

  /** The keys of a merge are the keys of either side. */
  lemma MergeKeysMembers(a: AttrMap, b: AttrMap, k: string)
    ensures k in Keys(Merge(a, b)) <==> k in Keys(a) || k in Keys(b)
  {
    MergeKeys(a, b);
    NewKeysMembers(Keys(a), Keys(b), k);
  }

  lemma {:induction false} MergeWellKeyed(a: AttrMap, b: AttrMap)
    ensures WellKeyed(a) ==> WellKeyed(Merge(a, b))
    decreases |b|
  {
    if |b| > 0 && WellKeyed(a) {
      PutWellKeyed(a, b[0].0, b[0].1);
      MergeWellKeyed(Put(a, b[0].0, b[0].1), b[1..]);
    }
  }

  /** Later entries win: a key `b` holds reads from `b`, any other key reads
      from `a`. */
  lemma {:induction false} MergeLookup(a: AttrMap, b: AttrMap, k: string)
    requires WellKeyed(b)
    ensures Lookup(Merge(a, b), k) == if k in Keys(b) then Lookup(b, k) else Lookup(a, k)
    decreases |b|
  {
    if |b| > 0 {
      var b' := b[1..];
      assert WellKeyed(b');
      MergeLookup(Put(a, b[0].0, b[0].1), b', k);
      PutLookup(a, b[0].0, b[0].1, k);
      assert Keys(b) == [b[0].0] + Keys(b');
    }
  }
}

=== FILE: batch.dfy ===
/** The control flow of `make()`, whatever makes the instances: the batch is
    built instance by instance, stopping at the first exception, and only
    then are the after-making callbacks run over it. */
module Batch {
  import opened Wrappers
  import opened Attributes
  import opened Environment
  import opened Callbacks

  /** Instance `k` of a batch, or what making it throws. */
  type Maker = nat -> Result<Instance, Error>

  /** A null or non-positive count makes a single bare instance. */
  predicate Single(count: Option<int>) {
    count.None? || count.value < 1
  }

  /** How many instances `make()` builds. */
  function BatchSize(count: Option<int>): (n: nat)
    ensures Single(count) ==> n == 1
    ensures !Single(count) ==> n == count.value
  {
    if Single(count) then 1 else count.value
  }

  /** `collect(range(1, $n))->map(fn () => $this->makeInstance())`: instances
      0 to `n - 1` made one after the other, stopping at the first that
      throws. Gives the instances made and that exception, if any. */
  function Build(makeOne: Maker, n: nat): (r: (seq<Instance>, Option<Error>))
    ensures |r.0| <= n
    ensures forall k :: 0 <= k < |r.0| ==> makeOne(k) == Success(r.0[k])
    ensures r.1.None? <==> |r.0| == n
    ensures r.1.Some? ==> makeOne(|r.0|) == Failure(r.1.value)
  {
    if n == 0 then ([], None)
    else
      var (items, err) := Build(makeOne, n - 1);
      if err.Some? then (items, err)
      else
        match makeOne(n - 1)
        case Failure(e) => (items, Some(e))
        case Success(inst) => (items + [inst], None)
  }

  /** A batch of one is the one instance made, or its failure. */
  lemma BuildOne(makeOne: Maker)
    ensures Build(makeOne, 1) ==
      match makeOne(0)
      case Success(inst) => ([inst], None)
      case Failure(e) => ([], Some(e))
  {
    var r := Build(makeOne, 1);
    if r.1.None? {
      assert makeOne(0) == Success(r.0[0]);
      assert r.0 == [r.0[0]];
    } else {
      assert |r.0| == 0;
    }
  }

  /** The instances of a `make()` result. */
  function Instances(m: Made): seq<Instance> {
    match m
    case One(inst) => [inst]
    case Many(items) => items
  }

  /** Something that happened during `make()`: instance `index` was
      constructed as `inst`, or callback `hook` was run on instance `index`. */
  datatype Event = Built(index: nat, inst: Instance) | Called(hook: nat, index: nat)

  /** What `make()` did: what it returned (or the exception it threw), and
      everything that happened until then, in order. */
  datatype Run = Run(result: Result<Made, Error>, events: seq<Event>)

  function BuiltEvents(items: seq<Instance>): (es: seq<Event>)
    ensures |es| == |items| && forall k :: 0 <= k < |items| ==> es[k] == Built(k, items[k])
  {
    seq(|items|, k requires 0 <= k < |items| => Built(k, items[k]))
  }

  function CalledEvents(calls: seq<Call>): (es: seq<Event>)
    ensures |es| == |calls| && forall p :: 0 <= p < |calls| ==> es[p] == Called(calls[p].0, calls[p].1)
  {
    seq(|calls|, p requires 0 <= p < |calls| => Called(calls[p].0, calls[p].1))
  }

  /** `make()` with no attributes, for a builder with count `count` whose
      callback collection is `hooks`: build the batch, then run the callbacks
      over it; the instances come back as the callbacks left them. */
  function MakeBatch(count: Option<int>, makeOne: Maker, hooks: seq<nat>, w: World, draw: nat): Run {
    var n := BatchSize(count);
    var (items, err) := Build(makeOne, n);
    if err.Some? then Run(Failure(err.value), BuiltEvents(items))
    else
      var (after, started, thrown) := RunRounds(items, n, hooks, w, draw);
      // RunRounds runs Round(0, hooks), Round(1, hooks), … in order, and
      // Schedule(n, hooks) is those rounds concatenated, so the `started`
      // calls it made are the first `started` calls of the schedule.
      var events := BuiltEvents(items) + CalledEvents(Schedule(n, hooks)[..started]);
      if thrown.Some? then Run(Failure(thrown.value), events)
      else if Single(count) then Run(Success(One(after[0])), events)
      else Run(Success(Many(after)), events)
  }

  /** With no callbacks, a single-instance `make()` is the one instance
      made, or its failure. */
  lemma SingleWithoutHooks(count: Option<int>, makeOne: Maker, w: World, draw: nat)
    requires Single(count)
    ensures MakeBatch(count, makeOne, [], w, draw) ==
      match makeOne(0)
      case Success(inst) => Run(Success(One(inst)), [Built(0, inst)])
      case Failure(e) => Run(Failure(e), [])
  {
    BuildOne(makeOne);
    if makeOne(0).Success? {
      var inst := makeOne(0).value;
      NoCallbacksRunNothing([inst], 1, w, draw);
      assert CalledEvents(Schedule(1, [])[..0]) == [];
      assert BuiltEvents([inst]) == [Built(0, inst)];
    }
  }

  /** The events of `make()`: the instances built, in order, then only
      callback calls. */
  lemma BatchEvents(count: Option<int>, makeOne: Maker, hooks: seq<nat>, w: World, draw: nat)
    ensures var items := Build(makeOne, BatchSize(count)).0;
      var r := MakeBatch(count, makeOne, hooks, w, draw);
      && |items| <= |r.events|
      && (forall k :: 0 <= k < |items| ==> r.events[k] == Built(k, items[k]))
      && (forall p :: |items| <= p < |r.events| ==> r.events[p].Called?)
  {
    var n := BatchSize(count);
    var (items, err) := Build(makeOne, n);
    if err.None? {
      var started := RunRounds(items, n, hooks, w, draw).1;
      var events := BuiltEvents(items) + CalledEvents(Schedule(n, hooks)[..started]);
      assert forall p :: n <= p < |events| ==> events[p] == CalledEvents(Schedule(n, hooks)[..started])[p - n];
    }
  }

  /** No instance is built once a callback has run, and callbacks run only
      once all the instances of the batch have been built. */
  lemma CallbacksFollowConstruction(count: Option<int>, makeOne: Maker, hooks: seq<nat>, w: World, draw: nat)
    ensures var r := MakeBatch(count, makeOne, hooks, w, draw);
      forall i, j :: 0 <= i < j < |r.events| && r.events[i].Called? ==> r.events[j].Called?
    ensures var r := MakeBatch(count, makeOne, hooks, w, draw);
      (exists i :: 0 <= i < |r.events| && r.events[i].Called?) ==>
        BatchSize(count) <= |r.events| &&
        forall k :: 0 <= k < BatchSize(count) ==> r.events[k].Built? && r.events[k].index == k
  {
    BatchEvents(count, makeOne, hooks, w, draw);
    var (items, err) := Build(makeOne, BatchSize(count));
    if err.Some? {
      assert MakeBatch(count, makeOne, hooks, w, draw).events == BuiltEvents(items);
    }
  }

  /** A successful `make()` returns what its count asks for: one bare
      instance for a null or non-positive count, else a collection of
      exactly that many. It throws whenever one of the instances fails to be
      made. */
  lemma BatchCount(count: Option<int>, makeOne: Maker, hooks: seq<nat>, w: World, draw: nat)
    ensures var r := MakeBatch(count, makeOne, hooks, w, draw);
      r.result.Success? ==>
        if Single(count) then r.result.value.One?
        else r.result.value.Many? && |r.result.value.items| == count.value
    ensures (exists k :: 0 <= k < BatchSize(count) && makeOne(k).Failure?) ==>
      MakeBatch(count, makeOne, hooks, w, draw).result.Failure?
  {
    var n := BatchSize(count);
    var (items, err) := Build(makeOne, n);
    if exists k :: 0 <= k < n && makeOne(k).Failure? {
      var k :| 0 <= k < n && makeOne(k).Failure?;
      assert err.Some?;
    }
  }

  /** The first instance that fails to be made stops the batch: `make()`
      throws its exception, only the instances before it were built, and no
      callback runs. */
  lemma BatchStopsAtFailure(count: Option<int>, makeOne: Maker, hooks: seq<nat>, w: World, draw: nat, k: nat)
    requires k < BatchSize(count) && makeOne(k).Failure?
    requires forall j :: 0 <= j < k ==> makeOne(j).Success?
    ensures var r := MakeBatch(count, makeOne, hooks, w, draw);
      && r.result == Failure(makeOne(k).error)
      && |r.events| == k
      && forall j :: 0 <= j < k ==> r.events[j] == Built(j, makeOne(j).value)
  {
    var (items, err) := Build(makeOne, BatchSize(count));
    assert |items| == k;
  }

  /** When every instance of the batch is made, what `make()` returns is
      what each instance's own callbacks make of it: it succeeds exactly when
      every instance's callbacks succeed on it, its instances are then the
      callbacks' results in order, and otherwise it throws what the first
      failing instance's callbacks threw. */
  lemma BatchAppliesCallbacks(count: Option<int>, makeOne: Maker, hooks: seq<nat>, w: World, draw: nat)
    requires forall k :: 0 <= k < BatchSize(count) ==> makeOne(k).Success?
    ensures var r := MakeBatch(count, makeOne, hooks, w, draw);
      var n := BatchSize(count);
      && (r.result.Success? <==>
            forall k :: 0 <= k < n ==> ApplyHooks(makeOne(k).value, hooks, w, draw + k).0.Success?)
      && (r.result.Success? ==>
            |Instances(r.result.value)| == n &&
            forall k :: 0 <= k < n ==>
              Instances(r.result.value)[k] == ApplyHooks(makeOne(k).value, hooks, w, draw + k).0.value)
      && (r.result.Failure? ==>
            exists k :: 0 <= k < n &&
              ApplyHooks(makeOne(k).value, hooks, w, draw + k).0 == Failure(r.result.error) &&
              forall j :: 0 <= j < k ==> ApplyHooks(makeOne(j).value, hooks, w, draw + j).0.Success?)
  {
    var n := BatchSize(count);
    var (items, err) := Build(makeOne, n);
    assert |items| == n;
    RoundsApplyAll(items, n, hooks, w, draw);
    ApplyAllCharacterized(items, n, hooks, w, draw);
  }

  /** When callbacks keep the class and every instance made is of class
      `cls`, everything a successful `make()` returns is of class `cls`, and
      it made every instance of the batch. */
  lemma BatchKeepsClass(count: Option<int>, makeOne: Maker, hooks: seq<nat>, w: World, draw: nat, cls: string)
    requires CallbacksKeepClass(w)
    requires forall k: nat :: makeOne(k).Success? ==> makeOne(k).value.cls == cls
    ensures var r := MakeBatch(count, makeOne, hooks, w, draw);
      r.result.Success? ==>
        && (forall k :: 0 <= k < BatchSize(count) ==> makeOne(k).Success?)
        && |Instances(r.result.value)| == BatchSize(count)
        && forall k :: 0 <= k < |Instances(r.result.value)| ==> Instances(r.result.value)[k].cls == cls
  {
    var n := BatchSize(count);
    var (items, err) := Build(makeOne, n);
    if err.None? {
      BatchAppliesCallbacks(count, makeOne, hooks, w, draw);
      var r := MakeBatch(count, makeOne, hooks, w, draw);
      if r.result.Success? {
        forall k | 0 <= k < n ensures Instances(r.result.value)[k].cls == cls {
          ApplyHooksKeepsClass(makeOne(k).value, hooks, w, draw + k);
          assert Instances(r.result.value)[k] == ApplyHooks(makeOne(k).value, hooks, w, draw + k).0.value;
        }
      }
    }
  }

  /** When the whole batch is made and `make()` returns, the events are the
      `n` constructions in order followed by every callback call in schedule
      order: call number `i * |hooks| + j` is callback `j` on instance `i`. */
  lemma BatchCallOrder(count: Option<int>, makeOne: Maker, hooks: seq<nat>, w: World, draw: nat, i: nat, j: nat)
    requires forall k :: 0 <= k < BatchSize(count) ==> makeOne(k).Success?
    requires MakeBatch(count, makeOne, hooks, w, draw).result.Success?
    requires i < BatchSize(count) && j < |hooks|
    ensures var r := MakeBatch(count, makeOne, hooks, w, draw);
      var n := BatchSize(count);
      && |r.events| == n + CallIndex(n, |hooks|, 0)
      && (forall k :: 0 <= k < n ==> r.events[k] == Built(k, makeOne(k).value))
      && n + CallIndex(i, |hooks|, j) < |r.events|
      && r.events[n + CallIndex(i, |hooks|, j)] == Called(hooks[j], i)
  {
    var n := BatchSize(count);
    var (items, err) := Build(makeOne, n);
    var calls := Schedule(n, hooks);
    assert calls[..|calls|] == calls;
    ScheduleLength(n, hooks);
    ScheduleOrder(n, hooks, i, j);
  }

  /** The callbacks cannot change what is constructed: two batches that
      differ only in their callbacks have the same construction events at the
      same positions. */
  lemma ConstructionIgnoresHooks(count: Option<int>, makeOne: Maker, h1: seq<nat>, h2: seq<nat>, w: World, draw: nat)
    ensures var r1, r2 := MakeBatch(count, makeOne, h1, w, draw), MakeBatch(count, makeOne, h2, w, draw);
      forall k :: 0 <= k < |r1.events| && r1.events[k].Built? ==> k < |r2.events| && r2.events[k] == r1.events[k]
  {
    BatchEvents(count, makeOne, h1, w, draw);
    BatchEvents(count, makeOne, h2, w, draw);
  }
}

=== FILE: callbacks.dfy ===
/** `callAfterMaking`: the after-making callbacks run over the instances of
    one `make()` call, instance by instance, each instance seeing every
    callback in registration order. A callback may change its instance (the
    PHP object is shared, so `make()` returns it changed) or throw, which
    ends the walk. */
module Callbacks {
  import opened Wrappers
  import opened Attributes
  import opened Environment

  /** A call to make: (callback, index of the instance it is given). */
  type Call = (nat, nat)

  /** The calls of one instance: every callback in registration order. */
  function Round(k: nat, hooks: seq<nat>): (s: seq<Call>)
    ensures |s| == |hooks|
    ensures forall j :: 0 <= j < |hooks| ==> s[j] == (hooks[j], k)
  {
    seq(|hooks|, j requires 0 <= j < |hooks| => (hooks[j], k))
  }

  /** Position of callback `j` on instance `i` when there are `h` callbacks. */
  function CallIndex(i: nat, h: nat, j: nat): nat {
    i * h + j
  }

  /** The order `callAfterMaking` makes its calls in, for `n` instances: the
      round of instance 0, then of instance 1, and so on. */
  function Schedule(n: nat, hooks: seq<nat>): (s: seq<Call>)
    ensures forall p :: 0 <= p < |s| ==> s[p].1 < n
  {
    if n == 0 then [] else Schedule(n - 1, hooks) + Round(n - 1, hooks)
  }

  /** The schedule holds `n * |hooks|` calls. */
  lemma {:induction false} ScheduleLength(n: nat, hooks: seq<nat>)
    ensures |Schedule(n, hooks)| == CallIndex(n, |hooks|, 0)
  {
    if n > 0 {
      ScheduleLength(n - 1, hooks);
      assert CallIndex(n, |hooks|, 0) == CallIndex(n - 1, |hooks|, 0) + |hooks|;
    }
  }

  /** Call number `i * |hooks| + j` is callback `j` on instance `i`. */
  lemma {:induction false} ScheduleOrder(n: nat, hooks: seq<nat>, i: nat, j: nat)
    requires i < n && j < |hooks|
    ensures CallIndex(i, |hooks|, j) < |Schedule(n, hooks)|
    ensures Schedule(n, hooks)[CallIndex(i, |hooks|, j)] == (hooks[j], i)
  {
    var h := |hooks|;
    var prefix := Schedule(n - 1, hooks);
    assert Schedule(n, hooks) == prefix + Round(n - 1, hooks);
    ScheduleLength(n - 1, hooks);
    if i < n - 1 {
      ScheduleOrder(n - 1, hooks, i, j);
    } else {
      assert CallIndex(i, h, j) == |prefix| + j;
    }
  }

  /** What one instance goes through on its own: the callbacks applied to it
      in order, each to the state the previous one left; the first that
      throws ends it. Gives the outcome and the number of calls started. */
  function ApplyHooks(inst: Instance, hooks: seq<nat>, w: World, draw: nat): (r: (Result<Instance, Error>, nat))
    ensures r.1 <= |hooks|
    ensures r.0.Success? ==> r.1 == |hooks|
    ensures r.0.Failure? ==> 0 < r.1
    decreases |hooks|
  {
    if |hooks| == 0 then (Success(inst), 0)
    else
      match w.callback(hooks[0], inst, draw)
      case Failure(e) => (Failure(e), 1)
      case Success(next) =>
        var (res, m) := ApplyHooks(next, hooks[1..], w, draw);
        (res, m + 1)
  }

  /** A PHP callback receives the object and can change its state, never
      its class. */
  ghost predicate CallbacksKeepClass(w: World) {
    forall h, i, d :: w.callback(h, i, d).Success? ==> w.callback(h, i, d).value.cls == i.cls
  }

  /** An instance that comes through its callbacks is of the class it
      went in with. */
  lemma {:induction false} ApplyHooksKeepsClass(inst: Instance, hooks: seq<nat>, w: World, draw: nat)
    requires CallbacksKeepClass(w)
    ensures ApplyHooks(inst, hooks, w, draw).0.Success? ==> ApplyHooks(inst, hooks, w, draw).0.value.cls == inst.cls
    decreases |hooks|
  {
    if |hooks| > 0 {
      var c := w.callback(hooks[0], inst, draw);
      if c.Success? {
        ApplyHooksKeepsClass(c.value, hooks[1..], w, draw);
      }
    }
  }

  /** Every call of `calls` names one of the `n` instances. */
  predicate InRange(calls: seq<Call>, n: nat) {
    forall p :: 0 <= p < |calls| ==> calls[p].1 < n
  }

  /** The calls run in order on `insts`. A call on instance `k` runs at draw
      `draw + k`, so each instance's callbacks draw their own randomness.
      Gives the instances as they stand when the walk stops, the number of
      calls started, and the exception of the call that threw, if one did. */
  function RunCalls(insts: seq<Instance>, calls: seq<Call>, w: World, draw: nat): (r: (seq<Instance>, nat, Option<Error>))
    requires InRange(calls, |insts|)
    ensures |r.0| == |insts| && r.1 <= |calls|
    ensures r.2.None? ==> r.1 == |calls|
    ensures r.2.Some? ==> 0 < r.1
    decreases |calls|
  {
    if |calls| == 0 then (insts, 0, None)
    else
      var (h, k) := calls[0];
      match w.callback(h, insts[k], draw + k)
      case Failure(e) => (insts, 1, Some(e))
      case Success(next) =>
        var (out, m, err) := RunCalls(insts[k := next], calls[1..], w, draw);
        (out, m + 1, err)
  }

  /** A walk leaves alone every instance none of its calls names. */
  lemma {:induction false} RunCallsFrame(insts: seq<Instance>, calls: seq<Call>, w: World, draw: nat, i: nat)
    requires InRange(calls, |insts|) && i < |insts|
    requires forall p :: 0 <= p < |calls| ==> calls[p].1 != i
    ensures RunCalls(insts, calls, w, draw).0[i] == insts[i]
    decreases |calls|
  {
    if |calls| > 0 {
      var (h, k) := calls[0];
      if w.callback(h, insts[k], draw + k).Success? {
        RunCallsFrame(insts[k := w.callback(h, insts[k], draw + k).value], calls[1..], w, draw, i);
      }
    }
  }

  /** The round of instance `k` does to it exactly what its callbacks do to
      it alone at draw `draw + k`, and touches no other instance. */
  lemma {:induction false} RoundRun(insts: seq<Instance>, k: nat, hooks: seq<nat>, w: World, draw: nat)
    requires k < |insts|
    ensures InRange(Round(k, hooks), |insts|)
    ensures var r, h := RunCalls(insts, Round(k, hooks), w, draw), ApplyHooks(insts[k], hooks, w, draw + k);
      r.1 == h.1 && (r.2.None? <==> h.0.Success?) && (r.2.Some? ==> r.2.value == h.0.error) &&
      (h.0.Success? ==> r.0 == insts[k := h.0.value])
    decreases |hooks|
  {
    if |hooks| > 0 {
      var round := Round(k, hooks);
      assert round[0] == (hooks[0], k);
      assert round[1..] == Round(k, hooks[1..]);
      match w.callback(hooks[0], insts[k], draw + k)
      case Failure(e) =>
      case Success(next) =>
        RoundRun(insts[k := next], k, hooks[1..], w, draw);
        assert insts[k := next][k] == next;
        var res := ApplyHooks(next, hooks[1..], w, draw + k).0;
        if res.Success? {
          assert insts[k := next][k := res.value] == insts[k := res.value];
        }
    } else {
      assert insts[k := insts[k]] == insts;
    }
  }

  /** One step of the reference reading: instance `k` (now `inst`) put
      through its own callbacks at its own draw `draw + k`, unless an earlier
      instance's callbacks threw. */
  function NextApply(x1: Result<seq<Instance>, Error>, inst: Instance, k: nat, hooks: seq<nat>, w: World, draw: nat): (r: Result<seq<Instance>, Error>)
    requires x1.Success? ==> k < |x1.value|
    ensures r.Success? ==> x1.Success? && |r.value| == |x1.value|
  {
    match x1
    case Failure(e) => Failure(e)
    case Success(a) =>
      match ApplyHooks(inst, hooks, w, draw + k).0
      case Failure(e) => Failure(e)
      case Success(v) => Success(a[k := v])
  }

  /** Reference reading of a batch's callbacks: instances 0 to `n - 1` each
      put through their own callbacks, one instance after the other, stopping
      at the first instance whose callbacks throw. */
  function ApplyAll(insts: seq<Instance>, n: nat, hooks: seq<nat>, w: World, draw: nat): (r: Result<seq<Instance>, Error>)
    requires n <= |insts|
    ensures r.Success? ==> |r.value| == |insts|
  {
    if n == 0 then Success(insts)
    else NextApply(ApplyAll(insts, n - 1, hooks, w, draw), insts[n - 1], n - 1, hooks, w, draw)
  }

  /** The reference reading in words: it succeeds exactly when every
      instance's callbacks succeed on it alone, each instance then ending as
      its own callbacks left it; otherwise it throws what the first failing
      instance's callbacks threw. */
  lemma {:induction false} ApplyAllCharacterized(insts: seq<Instance>, n: nat, hooks: seq<nat>, w: World, draw: nat)
    requires n <= |insts|
    ensures var r := ApplyAll(insts, n, hooks, w, draw);
      && (r.Success? <==> forall k :: 0 <= k < n ==> ApplyHooks(insts[k], hooks, w, draw + k).0.Success?)
      && (r.Success? ==>
            && (forall k :: 0 <= k < n ==> r.value[k] == ApplyHooks(insts[k], hooks, w, draw + k).0.value)
            && (forall k :: n <= k < |insts| ==> r.value[k] == insts[k]))
      && (r.Failure? ==> exists k :: 0 <= k < n && ApplyHooks(insts[k], hooks, w, draw + k).0 == Failure(r.error) &&
                           forall j :: 0 <= j < k ==> ApplyHooks(insts[j], hooks, w, draw + j).0.Success?)
    decreases n
  {
    if n > 0 {
      ApplyAllCharacterized(insts, n - 1, hooks, w, draw);
    }
  }

  /** One step of `callAfterMaking`: the round of instance `k` on the
      instances as the walk so far left them, unless the walk threw. */
  function NextRound(r1: (seq<Instance>, nat, Option<Error>), k: nat, hooks: seq<nat>, w: World, draw: nat): (r: (seq<Instance>, nat, Option<Error>))
    requires k < |r1.0|
    ensures |r.0| == |r1.0| && r.1 <= r1.1 + |hooks|
    ensures r.2.None? ==> r1.2.None? && r.1 == r1.1 + |hooks|
    ensures r1.2.None? && r.2.Some? ==> r1.1 < r.1
    ensures r1.2.Some? ==> r == r1
  {
    if r1.2.Some? then r1
    else
      var r2 := RunCalls(r1.0, Round(k, hooks), w, draw);
      (r2.0, r1.1 + r2.1, r2.2)
  }

  /** `callAfterMaking`: for each of instances 0 to `n - 1` in turn, its
      round of calls on the instances as the earlier rounds left them,
      stopping at the first throw. Gives the instances as they then stand,
      the number of calls started (a prefix of `Schedule(n, hooks)`) and the
      exception, if one was thrown. */
  function RunRounds(insts: seq<Instance>, n: nat, hooks: seq<nat>, w: World, draw: nat): (r: (seq<Instance>, nat, Option<Error>))
    requires n <= |insts|
    ensures |r.0| == |insts| && r.1 <= |Schedule(n, hooks)|
    ensures r.2.None? ==> r.1 == |Schedule(n, hooks)|
    ensures r.2.Some? ==> 0 < r.1
  {
    if n == 0 then (insts, 0, None)
    else NextRound(RunRounds(insts, n - 1, hooks, w, draw), n - 1, hooks, w, draw)
  }

  /** With no callbacks, the rounds make no call and change nothing. */
  lemma {:induction false} NoCallbacksRunNothing(insts: seq<Instance>, n: nat, w: World, draw: nat)
    requires n <= |insts|
    ensures RunRounds(insts, n, [], w, draw) == (insts, 0, None)
    decreases n
  {
    if n > 0 {
      NoCallbacksRunNothing(insts, n - 1, w, draw);
      assert Round(n - 1, []) == [];
    }
  }

  /** The rounds of instances 0 to `n - 1` leave every later instance alone. */
  lemma {:induction false} RunRoundsFrame(insts: seq<Instance>, n: nat, hooks: seq<nat>, w: World, draw: nat, i: nat)
    requires n <= i < |insts|
    ensures RunRounds(insts, n, hooks, w, draw).0[i] == insts[i]
    decreases n
  {
    if n > 0 {
      RunRoundsFrame(insts, n - 1, hooks, w, draw, i);
      var r1 := RunRounds(insts, n - 1, hooks, w, draw);
      if r1.2.None? {
        RunCallsFrame(r1.0, Round(n - 1, hooks), w, draw, i);
      }
    }
  }

  /** One round agrees with one step of the reference reading, when the
      walks so far agree and instance `k` is still as it was made. */
  lemma NextRoundAgrees(r1: (seq<Instance>, nat, Option<Error>), x1: Result<seq<Instance>, Error>, inst: Instance,
                        k: nat, hooks: seq<nat>, w: World, draw: nat)
    requires k < |r1.0|
    requires (x1.Success? <==> r1.2.None?) && (x1.Success? ==> r1.0 == x1.value) && (x1.Failure? ==> r1.2 == Some(x1.error))
    requires r1.2.None? ==> r1.0[k] == inst
    ensures var r, x := NextRound(r1, k, hooks, w, draw), NextApply(x1, inst, k, hooks, w, draw);
      (x.Success? <==> r.2.None?) && (x.Success? ==> r.0 == x.value) && (x.Failure? ==> r.2 == Some(x.error))
  {
    if r1.2.None? {
      RoundRun(r1.0, k, hooks, w, draw);
    }
  }

  /** The rounds walk is the reference reading: it ends with the same
      instances, or throws the same exception. */
  lemma {:induction false} RoundsApplyAll(insts: seq<Instance>, n: nat, hooks: seq<nat>, w: World, draw: nat)
    requires n <= |insts|
    ensures var r, x := RunRounds(insts, n, hooks, w, draw), ApplyAll(insts, n, hooks, w, draw);
      (x.Success? <==> r.2.None?) && (x.Success? ==> r.0 == x.value) && (x.Failure? ==> r.2 == Some(x.error))
    decreases n
  {
    if n > 0 {
      RoundsApplyAll(insts, n - 1, hooks, w, draw);
      RunRoundsFrame(insts, n - 1, hooks, w, draw, n - 1);
      NextRoundAgrees(RunRounds(insts, n - 1, hooks, w, draw), ApplyAll(insts, n - 1, hooks, w, draw), insts[n - 1],
                      n - 1, hooks, w, draw);
    }
  }
}

=== FILE: composer.dfy ===
/** The attribute pipeline of `UniversalFactory`: state layers folded over the
    definition (`getRawAttributes`), then every value expanded in key order
    (`expandAttributes`). */
module Composer {
  import opened Wrappers
  import opened Attributes
  import opened Environment

  /** A state layer: a callable, the constant closure `state()` wraps around
      an array, or the constant closure wrapped around anything else. */
  datatype Layer = Fn(id: nat) | Fixed(m: AttrMap) | NonArray

  /** How `state($state)` turns its argument into a layer: callables are kept,
      anything else is returned unchanged by a closure. */
  function ToLayer(state: Arg): (l: Layer)
    ensures l.Fn? <==> state.ACallable?
    ensures l.Fn? ==> l.id == state.id
    ensures state.AMap? ==> l == Fixed(state.m)
    ensures state.ANull? || state.ANum? ==> l == NonArray
  {
    match state
    case ACallable(id) => Fn(id)
    case AMap(m) => Fixed(m)
    case _ => NonArray
  }

  /** `$state($carry)`: what the layer returns, or the TypeError array_merge
      raises on a non-array. */
  function ApplyLayer(l: Layer, carry: AttrMap, w: World, draw: nat): Result<AttrMap, Error> {
    match l
    case Fn(id) => w.layer(id, carry, draw)
    case Fixed(m) => Success(m)
    case NonArray => Failure(NotAnArray)
  }

  /** An array given to `state()` is returned whatever the carry is. */
  lemma ArrayStateIgnoresCarry(m: AttrMap, carry1: AttrMap, carry2: AttrMap, w: World, draw1: nat, draw2: nat)
    ensures ApplyLayer(ToLayer(AMap(m)), carry1, w, draw1) == ApplyLayer(ToLayer(AMap(m)), carry2, w, draw2) == Success(m)
  {
  }

  /** One step of the reduce: `array_merge($carry, $state($carry))`. */
  function Step(carry: AttrMap, l: Layer, w: World, draw: nat): Result<AttrMap, Error> {
    match ApplyLayer(l, carry, w, draw)
    case Failure(e) => Failure(e)
    case Success(part) => Success(Merge(carry, part))
  }

  /** The left fold of the layers over the seed, stopping at the first
      failure. */
  function Fold(seed: AttrMap, layers: seq<Layer>, w: World, draw: nat): (r: Result<AttrMap, Error>)
    ensures r.Success? ==> forall i :: 0 <= i < |layers| ==> !layers[i].NonArray?
    ensures |layers| > 0 && layers[0].NonArray? ==> r == Failure(NotAnArray)
    decreases |layers|
  {
    if |layers| == 0 then Success(seed)
    else
      match ApplyLayer(layers[0], seed, w, draw)
      case Failure(e) => Failure(e)
      case Success(part) => Fold(Merge(seed, part), layers[1..], w, draw)
  }

  /** Folding keeps every key of the seed where it was (new keys come after
      them), and a proper PHP array stays one. */
  lemma {:induction false} FoldKeepsSeedKeys(seed: AttrMap, layers: seq<Layer>, w: World, draw: nat)
    ensures var r := Fold(seed, layers, w, draw);
      r.Success? ==> |seed| <= |r.value| && Keys(r.value)[..|seed|] == Keys(seed)
    ensures var r := Fold(seed, layers, w, draw);
      r.Success? && WellKeyed(seed) ==> WellKeyed(r.value)
    decreases |layers|
  {
    if |layers| > 0 {
      var p := ApplyLayer(layers[0], seed, w, draw);
      if p.Success? {
        var carry := Merge(seed, p.value);
        MergeKeys(seed, p.value);
        MergeWellKeyed(seed, p.value);
        FoldKeepsSeedKeys(carry, layers[1..], w, draw);
        var r := Fold(seed, layers, w, draw);
        if r.Success? {
          assert Keys(carry)[..|seed|] == Keys(seed);
          assert Keys(r.value)[..|seed|] == Keys(r.value)[..|carry|][..|seed|];
        }
      }
    }
  }

  /** `getRawAttributes`: the layers folded over `definition()`. A callable
      definition is never an array, so the result is always an exception.
      `$state($carry)` is evaluated before `array_merge`, so a callable first
      state still runs with the callable as its carry, and what it throws
      propagates. Otherwise `array_merge` rejects the callable carry, and with
      no layer the method's declared `array` return type does. */
  function RawAttributes(def: Definition, layers: seq<Layer>, w: World, draw: nat): (r: Result<AttrMap, Error>)
    ensures def.DefCallable? ==> r.Failure?
    ensures def.DefCallable? && (|layers| == 0 || !layers[0].Fn?) ==> r == Failure(NotAnArray)
    ensures def.DefCallable? && |layers| > 0 && layers[0].Fn? ==>
      r == Failure(w.layerOnCallable(layers[0].id, def.id, draw).GetOr(NotAnArray))
    ensures def.DefMap? ==> r == Fold(def.m, layers, w, draw)
  {
    match def
    case DefCallable(id) =>
      if |layers| > 0 && layers[0].Fn? then Failure(w.layerOnCallable(layers[0].id, id, draw).GetOr(NotAnArray))
      else Failure(NotAnArray)
    case DefMap(m) => Fold(m, layers, w, draw)
  }

  /** Appending a layer adds exactly one more step at the end of the fold. */
  lemma {:induction false} FoldAppend(seed: AttrMap, layers: seq<Layer>, l: Layer, w: World, draw: nat)
    ensures Fold(seed, layers + [l], w, draw) ==
      match Fold(seed, layers, w, draw)
      case Success(carry) => Step(carry, l, w, draw)
      case Failure(e) => Failure(e)
    decreases |layers|
  {
    if |layers| == 0 {
      assert [l][1..] == [];
    } else {
      assert (layers + [l])[1..] == layers[1..] + [l];
      var s := Step(seed, layers[0], w, draw);
      if s.Success? {
        FoldAppend(s.value, layers[1..], l, w, draw);
      }
    }
  }

  /** Layers built from arrays, each a proper PHP array. */
  ghost predicate AllFixed(layers: seq<Layer>) {
    forall i :: 0 <= i < |layers| ==> layers[i].Fixed? && WellKeyed(layers[i].m)
  }

  /** Reference reading of layering: the value of `k` is the one given by the
      LAST layer mentioning it, or the seed's when no layer does. */
  function LastWriter(seed: AttrMap, layers: seq<Layer>, k: string): Option<Value>
    decreases |layers|
  {
    if |layers| == 0 then Lookup(seed, k)
    else
      var last := layers[|layers| - 1];
      if last.Fixed? && k in Keys(last.m) then Lookup(last.m, k)
      else LastWriter(seed, layers[..|layers| - 1], k)
  }

  /** Folding array layers never fails, and every key reads as the last
      layer that mentions it wrote it. */
  lemma {:induction false} FoldFixedLookup(seed: AttrMap, layers: seq<Layer>, w: World, draw: nat, k: string)
    requires AllFixed(layers)
    ensures Fold(seed, layers, w, draw).Success?
    ensures Lookup(Fold(seed, layers, w, draw).value, k) == LastWriter(seed, layers, k)
    decreases |layers|
  {
    if |layers| > 0 {
      var init := layers[..|layers| - 1];
      var last := layers[|layers| - 1];
      assert layers == init + [last];
      assert AllFixed(init);
      FoldFixedLookup(seed, init, w, draw, k);
      FoldAppend(seed, init, last, w, draw);
      var carry := Fold(seed, init, w, draw).value;
      assert ApplyLayer(last, carry, w, draw) == Success(last.m);
      assert Fold(seed, layers, w, draw) == Success(Merge(carry, last.m));
      MergeLookup(carry, last.m, k);
    }
  }

  /** `is_callable`: closures always; a string when it names a function; an
      object when its class is invokable. Callable arrays need integer keys
      and are outside this string-keyed model. */
  predicate IsCallable(v: Value, w: World) {
    match v
    case Gen(_) => true
    case Str(s) => s in w.functions
    case EnumCase(e, _) => e in w.invokable
    case Obj(inst) => inst.cls in w.invokable
    case _ => false
  }

  /** The guard of expandAttributes: callable, and not a string, an array or
      an enum case. */
  predicate IsGenerator(v: Value, w: World) {
    IsCallable(v, w) && !v.Str? && !v.Arr? && !v.EnumCase?
  }

  /** The guard in words: a closure, or an object of an invokable class, is
      invoked; a callable string (a function name), an array and an enum case
      are never invoked, and nothing else is callable. */
  lemma GeneratorGuard(v: Value, w: World)
    ensures IsGenerator(v, w) <==> v.Gen? || (v.Obj? && v.inst.cls in w.invokable)
    ensures IsGenerator(v, w) ==> IsCallable(v, w)
    ensures v.Str? || v.Arr? || v.EnumCase? ==> !IsGenerator(v, w)
  {
  }

  /** A nested factory replaced by what its `make()` returns. */
  function Realize(v: Value, w: World, draw: nat): Result<Value, Error> {
    if v.Sub? then
      var made :- w.subMake(v.id, draw);
      match made
      case One(inst) => Success(Obj(inst))
      case Many(items) => Success(Coll(items))
    else Success(v)
  }

  /** One value of expandAttributes: a nested factory is made first, and the
      result (the made object or the original value) is invoked on the
      current attributes when it is a generator. */
  function ExpandValue(v: Value, current: AttrMap, w: World, draw: nat): (r: Result<Value, Error>)
    ensures IsPlain(v) ==> r == Success(v)
    ensures v.Gen? ==> r == w.invoke(v, current, draw)
    ensures !v.Sub? && IsGenerator(v, w) ==> r == w.invoke(v, current, draw)
    ensures !v.Sub? && !IsGenerator(v, w) ==> r == Success(v)
    ensures v.Sub? && w.subMake(v.id, draw).Failure? ==> r == Failure(w.subMake(v.id, draw).error)
  {
    var v1 :- Realize(v, w, draw);
    if IsGenerator(v1, w) then w.invoke(v1, current, draw) else Success(v1)
  }

  /** `out` is the expansion of `raw` from position `i` on: keys and order
      are kept, positions before `i` are untouched, and each later value is
      its raw value expanded against the attributes as they stood when its
      key was reached (earlier keys expanded, later keys raw). */
  ghost predicate ExpandedFrom(raw: AttrMap, out: AttrMap, i: nat, w: World, draw: nat) {
    && i <= |raw|
    && |out| == |raw|
    && out[..i] == raw[..i]
    && forall j :: i <= j < |raw| ==>
         out[j].0 == raw[j].0 && ExpandValue(raw[j].1, out[..j] + raw[j..], w, draw) == Success(out[j].1)
  }

  /** Expanding position `i` in place and then the rest is an expansion
      from `i`. */
  lemma ExpandStep(cur: AttrMap, out: AttrMap, i: nat, v: Value, w: World, draw: nat)
    requires i < |cur| && ExpandValue(cur[i].1, cur, w, draw) == Success(v)
    requires ExpandedFrom(cur[i := (cur[i].0, v)], out, i + 1, w, draw)
    ensures ExpandedFrom(cur, out, i, w, draw)
  {
    var next := cur[i := (cur[i].0, v)];
    assert out[..i] == next[..i] == cur[..i] by {
      assert out[..i] == out[..i + 1][..i];
    }
    assert out[..i] + cur[i..] == cur;
    assert out[i] == next[i];
    assert forall j :: i < j < |cur| ==> next[j..] == cur[j..] && next[j] == cur[j];
  }

  /** The walk of expandAttributes from position `i`, writing each expanded
      value back in place before moving on. */
  function ExpandFrom(cur: AttrMap, i: nat, w: World, draw: nat): (r: Result<AttrMap, Error>)
    requires i <= |cur|
    ensures r.Success? ==> ExpandedFrom(cur, r.value, i, w, draw)
    decreases |cur| - i
  {
    if i == |cur| then Success(cur)
    else
      var v :- ExpandValue(cur[i].1, cur, w, draw);
      var r := ExpandFrom(cur[i := (cur[i].0, v)], i + 1, w, draw);
      if r.Success? then
        ExpandStep(cur, r.value, i, v, w, draw);
        r
      else r
  }

  /** `expandAttributes`. */
  function ExpandAttributes(raw: AttrMap, w: World, draw: nat): (r: Result<AttrMap, Error>)
    ensures r.Success? ==> ExpandedFrom(raw, r.value, 0, w, draw)
  {
    ExpandFrom(raw, 0, w, draw)
  }

  /** Any map that is an expansion of `cur` from `i` is the one the walk returns. */
  lemma {:induction false} ExpandFromComplete(cur: AttrMap, out: AttrMap, i: nat, w: World, draw: nat)
    requires ExpandedFrom(cur, out, i, w, draw)
    ensures ExpandFrom(cur, i, w, draw) == Success(out)
    decreases |cur| - i
  {
    if i == |cur| {
      assert out == out[..i] == cur[..i] == cur;
    } else {
      assert out[..i] + cur[i..] == cur;
      var next := cur[i := (cur[i].0, out[i].1)];
      assert next == cur[i := out[i]];
      assert out[..i + 1] == next[..i + 1];
      forall j | i + 1 <= j < |cur|
        ensures out[j].0 == next[j].0 && ExpandValue(next[j].1, out[..j] + next[j..], w, draw) == Success(out[j].1)
      {
        assert next[j..] == cur[j..];
      }
      ExpandFromComplete(next, out, i + 1, w, draw);
    }
  }

  /** `pre` is the expansion of `raw` from position `i` up to position
      `|pre|`: positions before `i` are untouched, and each key from `i` on
      expanded successfully against the attributes as they stood when it was
      reached. */
  ghost predicate ExpandedUpTo(raw: AttrMap, pre: AttrMap, i: nat, w: World, draw: nat) {
    && i <= |pre| <= |raw|
    && pre[..i] == raw[..i]
    && forall j :: i <= j < |pre| ==>
         pre[j].0 == raw[j].0 && ExpandValue(raw[j].1, pre[..j] + raw[j..], w, draw) == Success(pre[j].1)
  }

  /** A failing walk from `i` failed at some key `|pre|`: every key before
      it (from `i`) expanded, and that key's expansion, against the
      attributes as they then stood, threw the walk's exception. */
  lemma {:induction false} ExpandFromFails(cur: AttrMap, i: nat, w: World, draw: nat)
    requires i <= |cur|
    ensures var r := ExpandFrom(cur, i, w, draw);
      r.Failure? ==>
        exists pre :: |pre| < |cur| && ExpandedUpTo(cur, pre, i, w, draw) &&
          ExpandValue(cur[|pre|].1, pre + cur[|pre|..], w, draw) == Failure(r.error)
    decreases |cur| - i
  {
    var r := ExpandFrom(cur, i, w, draw);
    if i < |cur| && r.Failure? {
      var e := ExpandValue(cur[i].1, cur, w, draw);
      if e.Failure? {
        var pre := cur[..i];
        assert pre + cur[i..] == cur;
        assert ExpandedUpTo(cur, pre, i, w, draw);
      } else {
        var next := cur[i := (cur[i].0, e.value)];
        assert r == ExpandFrom(next, i + 1, w, draw);
        ExpandFromFails(next, i + 1, w, draw);
        var pre :| |pre| < |next| && ExpandedUpTo(next, pre, i + 1, w, draw) &&
          ExpandValue(next[|pre|].1, pre + next[|pre|..], w, draw) == Failure(r.error);
        assert next[|pre|..] == cur[|pre|..];
        ExpandedUpToStep(cur, pre, i, e.value, w, draw);
      }
    }
  }

  /** Expanding position `i` in place and then up to `|pre|` is an expansion
      from `i` up to `|pre|`. */
  lemma ExpandedUpToStep(cur: AttrMap, pre: AttrMap, i: nat, v: Value, w: World, draw: nat)
    requires i < |cur| && ExpandValue(cur[i].1, cur, w, draw) == Success(v)
    requires ExpandedUpTo(cur[i := (cur[i].0, v)], pre, i + 1, w, draw)
    ensures ExpandedUpTo(cur, pre, i, w, draw)
  {
    var next := cur[i := (cur[i].0, v)];
    assert pre[..i] == next[..i] == cur[..i] by {
      assert pre[..i] == pre[..i + 1][..i];
    }
    assert pre[..i] + cur[i..] == cur;
    assert pre[i] == next[i];
    assert forall j :: i < j < |cur| ==> next[j..] == cur[j..] && next[j] == cur[j];
  }

  /** Expansion succeeds with `out` exactly when `out` keeps the keys of
      `raw` in order and each value is its raw value expanded against the
      attributes as they stood when its key was reached. When it fails, it
      throws what the first failing key's expansion threw, every earlier key
      having expanded. */
  lemma ExpandAttributesCharacterized(raw: AttrMap, out: AttrMap, w: World, draw: nat)
    ensures ExpandAttributes(raw, w, draw) == Success(out) <==> ExpandedFrom(raw, out, 0, w, draw)
    ensures var r := ExpandAttributes(raw, w, draw);
      r.Failure? ==>
        exists pre :: |pre| < |raw| && ExpandedUpTo(raw, pre, 0, w, draw) &&
          ExpandValue(raw[|pre|].1, pre + raw[|pre|..], w, draw) == Failure(r.error)
  {
    if ExpandedFrom(raw, out, 0, w, draw) {
      ExpandFromComplete(raw, out, 0, w, draw);
    }
    ExpandFromFails(raw, 0, w, draw);
  }

  /** Values expansion never touches. */
  predicate IsPlain(v: Value) {
    v.Null? || v.Data? || v.Str? || v.Arr? || v.EnumCase? || v.Coll?
  }

  /** Attributes holding only plain values expand to themselves. */
  lemma PlainAttributesExpandToThemselves(raw: AttrMap, w: World, draw: nat)
    requires forall i :: 0 <= i < |raw| ==> IsPlain(raw[i].1)
    ensures ExpandAttributes(raw, w, draw) == Success(raw)
  {
    forall j | 0 <= j < |raw|
      ensures ExpandValue(raw[j].1, raw[..j] + raw[j..], w, draw) == Success(raw[j].1)
    {
      assert IsPlain(raw[j].1);
    }
    ExpandFromComplete(raw, raw, 0, w, draw);
  }

  /** A nested factory becomes what its make() returns: the instance (itself
      invoked when its class is invokable) or the collection; a failing make()
      fails the expansion. */
  lemma SubFactoryIsMade(id: nat, current: AttrMap, w: World, draw: nat)
    ensures w.subMake(id, draw).Failure? ==> ExpandValue(Sub(id), current, w, draw) == Failure(w.subMake(id, draw).error)
    ensures (w.subMake(id, draw).Success? && w.subMake(id, draw).value.Many?) ==>
      ExpandValue(Sub(id), current, w, draw) == Success(Coll(w.subMake(id, draw).value.items))
    ensures (w.subMake(id, draw).Success? && w.subMake(id, draw).value.One? &&
             w.subMake(id, draw).value.inst.cls !in w.invokable) ==>
      ExpandValue(Sub(id), current, w, draw) == Success(Obj(w.subMake(id, draw).value.inst))
    ensures (w.subMake(id, draw).Success? && w.subMake(id, draw).value.One? &&
             w.subMake(id, draw).value.inst.cls in w.invokable) ==>
      ExpandValue(Sub(id), current, w, draw) == w.invoke(Obj(w.subMake(id, draw).value.inst), current, draw)
  {
  }
}

=== FILE: environment.dfy ===
/** Everything the factory engine consults but does not compute itself: which
    classes exist, what a factory's `definition()` returns, and what the
    user-supplied callables (state closures, attribute generators, nested
    factories) do. Randomness is a `draw` index: the same callable asked
    with the same draw answers the same. */
module Environment {
  import opened Wrappers
  import opened Attributes

  /** The errors the engine raises or lets through. */
  datatype Error =
    | Raised(reason: string)          // a user callable (state, generator, nested make, callback) or a constructor threw
    | NotAnArray                      // TypeError: array_merge or expandAttributes received a non-array
    | ClassNotFound(name: string)     // `new $class`, ReflectionClass or `::new()` on a missing class
    | NoConstructor(name: string)     // reflection found no constructor to read parameters from
    | CannotLocateClass(factory: string)
    | BadMethodCall(name: string)

  /** `ClassConstructionStrategy`. */
  datatype Strategy = ArrayBased | ContainerBased | ReflectionBased

  /** The class-level defaults of one concrete factory class: its name, its
      `$class` property and its `$classConstructionStrategy` property. */
  datatype FactoryClass = FactoryClass(name: string, cls: Option<string>, defaultStrategy: Strategy)

  /** What `definition()` returns: an array, or a callable. */
  datatype Definition = DefMap(m: AttrMap) | DefCallable(id: nat)

  /** Process-wide settings the engine reads: the factories' namespace, the
      name of the static factory method, and the optional factory-name
      resolver (`$factoryNameResolver`, which the engine has no setter for;
      a subclass assigns it). The class-name resolver that
      `guessClassNamesUsing` sets is part of `World.guessClassName`. */
  datatype Config = Config(namespace: string, methodName: string, factoryNameResolver: Option<string -> string>)

  datatype World = World(
    classes: set<string>,                      // class_exists
    constructors: map<string, seq<string>>,    // constructor parameter names, for classes that have one (declared or inherited)
    functions: set<string>,                    // global function names (callable strings)
    invokable: set<string>,                    // classes whose instances are callable (__invoke)
    factories: map<string, FactoryClass>,      // the UniversalFactory subclasses that exist
    definition: (string, nat) -> Definition,   // a factory class's definition(), at a draw
    layer: (nat, AttrMap, nat) -> Result<AttrMap, Error>,   // a callable state applied to the carry
    layerOnCallable: (nat, nat, nat) -> Option<Error>,      // what a callable state throws, if anything, when its carry is a callable definition
    invoke: (Value, AttrMap, nat) -> Result<Value, Error>,  // a callable attribute applied to the attributes
    subMake: (nat, nat) -> Result<Made, Error>,             // make() of a nested factory
    guessClassName: string -> Option<string>,  // `$classNameResolver`, or the default guesser; None when it finds nothing
    refuses: Instance -> Option<Error>,        // what the constructor (or the container) throws, if anything
    callback: (nat, Instance, nat) -> Result<Instance, Error>  // an after-making callback run on an instance: its new state
  )
}

=== FILE: factory.dfy ===
/** The `UniversalFactory` builder: its carried state, the fluent operations
    that derive new builders, and `make`. */
module Factory {
  import opened Wrappers
  import opened Attributes
  import opened Environment
  import opened Composer
  import opened Naming
  import opened Callbacks
  import opened Batch

  /** The after-making callback collections, by reference. A builder holds the
      index of its collection; every builder derived from it holds the same. */
  type Store = seq<seq<nat>>

  /** A factory builder object: its concrete class, `$count`, `$states`, the
      reference to `$afterMaking`, `$recycle` and `$classConstructionStrategy`. */
  datatype Builder = Builder(
    factory: FactoryClass,
    count: Option<int>,
    states: seq<Layer>,
    hooks: nat,
    recycle: seq<Value>,
    strategy: Strategy
  )

  /** The builder's callback collection exists. */
  predicate Allocated(b: Builder, store: Store) {
    b.hooks < |store|
  }

  /** `newInstance`: `new static` from the current count, states, callback
      collection and recycle, overridden by the given count and states. The
      strategy property is re-initialised to the class default. */
  function NewInstance(b: Builder, count: Option<int>, states: seq<Layer>): (r: Builder)
    ensures r.factory == b.factory && r.hooks == b.hooks && r.recycle == b.recycle
    ensures r.count == count && r.states == states
    ensures r.strategy == b.factory.defaultStrategy
  {
    Builder(b.factory, count, states, b.hooks, b.recycle, b.factory.defaultStrategy)
  }

  /** `count($n)`: a new builder that differs only in its count, apart from
      the strategy going back to the class default. */
  function Count(b: Builder, n: Option<int>): (r: Builder)
    ensures r == b.(count := n, strategy := b.factory.defaultStrategy)
  {
    NewInstance(b, n, b.states)
  }

  /** `state($state)`: a new builder with exactly one more layer, appended
      last; nothing else changes apart from the strategy reset. */
  function State(b: Builder, state: Arg): (r: Builder)
    ensures r == b.(states := b.states + [ToLayer(state)], strategy := b.factory.defaultStrategy)
    ensures |r.states| == |b.states| + 1 && r.states[..|b.states|] == b.states
  {
    var r := NewInstance(b, b.count, b.states + [ToLayer(state)]);
    assert r.states[..|b.states|] == b.states;
    r
  }

  /** `configure()`: the hook point for subclasses; the base class hands back
      the builder it was called on. */
  function Configure(b: Builder): (r: Builder)
    ensures r == b
  {
    b
  }

  /** `UniversalFactory::new($attributes)`: a blank builder with a fresh
      callback collection, then `state($attributes)`, then `configure()`. */
  function New(fc: FactoryClass, attributes: Arg, store: Store): (r: (Builder, Store))
    ensures r.0 == Builder(fc, None, [ToLayer(attributes)], |store|, [], fc.defaultStrategy)
    ensures r.1 == store + [[]] && Allocated(r.0, r.1)
  {
    var blank := Builder(fc, None, [], |store|, [], fc.defaultStrategy);
    (Configure(State(blank, attributes)), store + [[]])
  }

  /** `afterMaking($callback)`: pushes onto the shared collection and returns
      the same builder. */
  function AfterMaking(b: Builder, hook: nat, store: Store): (r: (Builder, Store))
    requires Allocated(b, store)
    ensures r.0 == b
    ensures |r.1| == |store| && r.1[b.hooks] == store[b.hooks] + [hook]
    ensures forall ref :: 0 <= ref < |store| && ref != b.hooks ==> r.1[ref] == store[ref]
  {
    (b, store[b.hooks := store[b.hooks] + [hook]])
  }

  /** `useConstructionStrategy($strategy)`: sets the strategy of this builder
      and changes nothing else. */
  function UseConstructionStrategy(b: Builder, s: Strategy): (r: Builder)
    ensures r.strategy == s
    ensures r.(strategy := b.strategy) == b
  {
    b.(strategy := s)
  }

  /** `className()`: the explicit `$class` when one is set, else what the
      class-name resolver finds, failing when it finds nothing. */
  function ClassName(b: Builder, w: World): (r: Result<string, Error>)
    ensures b.factory.cls.Some? ==> r == Success(b.factory.cls.value)
    ensures b.factory.cls.None? ==> (r.Success? <==> w.guessClassName(b.factory.name).Some?)
    ensures b.factory.cls.None? && r.Success? ==> r.value == w.guessClassName(b.factory.name).value
  {
    match b.factory.cls
    case Some(c) => Success(c)
    case None =>
      match w.guessClassName(b.factory.name)
      case Some(c) => Success(c)
      case None => Failure(CannotLocateClass(b.factory.name))
  }

  /** The class a builder constructs belongs to its factory class: builders
      derived by `state`, `count` or `useConstructionStrategy` construct the
      same class. */
  lemma DerivedBuildersTargetSameClass(b: Builder, state: Arg, n: Option<int>, s: Strategy, w: World)
    ensures ClassName(State(b, state), w) == ClassName(b, w)
    ensures ClassName(Count(b, n), w) == ClassName(b, w)
    ensures ClassName(UseConstructionStrategy(b, s), w) == ClassName(b, w)
  {
  }

  /** `resolveClassParameters`: one argument per constructor parameter, in
      parameter order: the attribute of that name, or null. */
  function ResolveClassParameters(params: seq<string>, attrs: AttrMap): (args: seq<Value>)
    ensures |args| == |params|
    ensures forall i :: 0 <= i < |params| ==>
      args[i] == if params[i] in Keys(attrs) then Lookup(attrs, params[i]).value else Null
  {
    if |params| == 0 then []
    else [Lookup(attrs, params[0]).GetOr(Null)] + ResolveClassParameters(params[1..], attrs)
  }

  /** Attributes that name no constructor parameter make no difference. */
  lemma ExtraAttributesIgnored(params: seq<string>, a1: AttrMap, a2: AttrMap)
    requires forall i :: 0 <= i < |params| ==> Lookup(a1, params[i]) == Lookup(a2, params[i])
    ensures ResolveClassParameters(params, a1) == ResolveClassParameters(params, a2)
  {
    var r1 := ResolveClassParameters(params, a1);
    var r2 := ResolveClassParameters(params, a2);
    assert forall i :: 0 <= i < |params| ==> r1[i] == r2[i];
  }

  /** The construction a strategy asks for: `new $class($attributes)`,
      `app()->makeWith($class, $attributes)`, or `new $class(...$params)`;
      a missing class, or a class without a constructor to reflect on,
      fails before anything is constructed. */
  function Requested(b: Builder, cls: string, attrs: AttrMap, w: World): Result<Instance, Error> {
    match b.strategy
    case ArrayBased =>
      if cls in w.classes then Success(Constructed(cls, [Arr(attrs)])) else Failure(ClassNotFound(cls))
    case ContainerBased =>
      Success(Resolved(cls, attrs))
    case ReflectionBased =>
      if cls !in w.classes then Failure(ClassNotFound(cls))
      else if cls !in w.constructors then Failure(NoConstructor(cls))
      else Success(Constructed(cls, ResolveClassParameters(w.constructors[cls], attrs)))
  }

  /** `newClass`: construct the target class by the builder's strategy. The
      constructor (or the container) may throw. */
  function NewClass(b: Builder, attrs: AttrMap, w: World): (r: Result<Instance, Error>)
    ensures r.Success? ==> ClassName(b, w).Success? && r.value.cls == ClassName(b, w).value
  {
    var cls :- ClassName(b, w);
    var inst :- Requested(b, cls, attrs, w);
    match w.refuses(inst)
    case Some(e) => Failure(e)
    case None => Success(inst)
  }

  /** The three strategies: the array-based one passes the whole attribute
      array as the only argument; the reflection-based one passes one
      argument per constructor parameter, in order, the attribute of that
      name or null, ignoring other attributes; the container-based one hands
      the class and the attributes to the container. Construction fails
      exactly when the class name cannot be resolved, the class (or, by
      reflection, its constructor) is missing, or the constructor (or the
      container) throws on what it is given. */
  lemma NewClassByStrategy(b: Builder, attrs: AttrMap, w: World)
    ensures var r := NewClass(b, attrs, w);
      && (ClassName(b, w).Failure? ==> r == Failure(ClassName(b, w).error))
      && (r.Success? && b.strategy == ArrayBased ==> r.value == Constructed(r.value.cls, [Arr(attrs)]))
      && (r.Success? && b.strategy == ContainerBased ==> r.value == Resolved(r.value.cls, attrs))
      && (r.Success? && b.strategy == ReflectionBased ==>
            && r.value.Constructed? && r.value.cls in w.constructors
            && |r.value.args| == |w.constructors[r.value.cls]|
            && forall i :: 0 <= i < |r.value.args| ==>
                 r.value.args[i] == (var p := w.constructors[r.value.cls][i];
                                     if p in Keys(attrs) then Lookup(attrs, p).value else Null))
      && (ClassName(b, w).Success? ==>
            var cls := ClassName(b, w).value;
            match b.strategy
            case ArrayBased =>
              r.Success? <==> cls in w.classes && w.refuses(Constructed(cls, [Arr(attrs)])).None?
            case ContainerBased =>
              r.Success? <==> w.refuses(Resolved(cls, attrs)).None?
            case ReflectionBased =>
              r.Success? <==> cls in w.classes && cls in w.constructors &&
                              w.refuses(Constructed(cls, ResolveClassParameters(w.constructors[cls], attrs))).None?)
      && (r.Failure? && ClassName(b, w).Success? && b.strategy == ContainerBased ==>
            r == Failure(w.refuses(Resolved(ClassName(b, w).value, attrs)).value))
  {
  }

  /** `makeInstance`: fold, expand, construct. */
  function MakeInstance(b: Builder, w: World, draw: nat): (r: Result<Instance, Error>)
    ensures w.definition(b.factory.name, draw).DefCallable? ==>
      r == Failure(RawAttributes(w.definition(b.factory.name, draw), b.states, w, draw).error)
    ensures r.Success? ==> ClassName(b, w).Success? && r.value.cls == ClassName(b, w).value
  {
    var raw :- RawAttributes(w.definition(b.factory.name, draw), b.states, w, draw);
    var attrs :- ExpandAttributes(raw, w, draw);
    NewClass(b, attrs, w)
  }

  /** The instances of a batch made from draw `draw`: instance `k` is
      `makeInstance()` at draw `draw + k`. */
  function InstanceAt(b: Builder, w: World, draw: nat): Maker {
    (k: nat) => MakeInstance(b, w, draw + k)
  }

  /** The count plays no part in making one instance. */
  lemma MakeInstanceIgnoresCount(b: Builder, count: Option<int>, w: World, draw: nat)
    ensures MakeInstance(b.(count := count), w, draw) == MakeInstance(b, w, draw)
  {
    var b' := b.(count := count);
    assert ClassName(b', w) == ClassName(b, w);
    forall cls, attrs ensures Requested(b', cls, attrs, w) == Requested(b, cls, attrs, w) { }
  }

  /** PHP's `empty()` on an argument. */
  predicate IsEmpty(a: Arg) {
    a == ANull || a == ANum(0) || a == AMap([])
  }

  /** `make()` with no attributes: the batch of the builder's count, made by
      `makeInstance`, run through the builder's callback collection. */
  function MakeBare(b: Builder, w: World, store: Store, draw: nat): Run
    requires Allocated(b, store)
  {
    MakeBatch(b.count, InstanceAt(b, w, draw), store[b.hooks], w, draw)
  }

  /** `make($attributes)`: with attributes, `state($attributes)->make()`. No
      instance is built once a callback has run, and callbacks run only once
      every instance of the batch has been built. */
  function Make(b: Builder, attributes: Arg, w: World, store: Store, draw: nat): (r: Run)
    requires Allocated(b, store)
    ensures forall i, j :: 0 <= i < j < |r.events| && r.events[i].Called? ==> r.events[j].Called?
    ensures (exists i :: 0 <= i < |r.events| && r.events[i].Called?) ==>
      BatchSize(b.count) <= |r.events| &&
      forall k :: 0 <= k < BatchSize(b.count) ==> r.events[k].Built? && r.events[k].index == k
  {
    var b' := if IsEmpty(attributes) then b else State(b, attributes);
    CallbacksFollowConstruction(b'.count, InstanceAt(b', w, draw), store[b'.hooks], w, draw);
    MakeBare(b', w, store, draw)
  }

  /** `factoryForClass`: resolve the factory name and call `::new()` on it. */
  function FactoryForClass(className: string, cfg: Config, w: World, store: Store): (r: Result<(Builder, Store), Error>)
    ensures var name := ResolveFactoryName(className, cfg, w.classes);
      r == if name in w.factories then Success(New(w.factories[name], AMap([]), store)) else Failure(ClassNotFound(name))
  {
    var name := ResolveFactoryName(className, cfg, w.classes);
    if name in w.factories then Success(New(w.factories[name], AMap([]), store))
    else Failure(ClassNotFound(name))
  }

  /** With the default resolver, `factoryForClass` instantiates the first of
      the candidate factory names that exists, and fails when none does
      (the fallback name then names no class, so no factory). */
  lemma FactoryForClassFindsFirstCandidate(className: string, cfg: Config, w: World, store: Store)
    requires cfg.factoryNameResolver.None?
    requires forall name :: name in w.factories ==> name in w.classes
    ensures var cands := Candidates(className, cfg.namespace);
      var r := FactoryForClass(className, cfg, w, store);
      match FirstExisting(cands, w.classes)
      case None => r.Failure?
      case Some(i) =>
        (r.Success? <==> cands[i] in w.factories) &&
        (r.Success? ==> r.value == New(w.factories[cands[i]], AMap([]), store))
  {
    DefaultResolverPicksFirstExisting(className, cfg, w.classes);
  }

  /** A successful `make()` (no overrides) builds the batch its count asks
      for: one bare instance for a null or non-positive count, else a
      collection of exactly that many. It throws whenever one of the
      instances fails to be made. */
  lemma MakeCount(b: Builder, w: World, store: Store, draw: nat)
    requires Allocated(b, store)
    ensures var r := Make(b, AMap([]), w, store, draw);
      r.result.Success? ==>
        if Single(b.count) then r.result.value.One?
        else r.result.value.Many? && |r.result.value.items| == b.count.value
    ensures (exists k :: 0 <= k < BatchSize(b.count) && InstanceAt(b, w, draw)(k).Failure?) ==>
      Make(b, AMap([]), w, store, draw).result.Failure?
  {
    BatchCount(b.count, InstanceAt(b, w, draw), store[b.hooks], w, draw);
  }

  /** The first instance that fails to be made stops the batch: `make()`
      throws its exception, only the instances before it were built, and no
      callback runs. */
  lemma MakeStopsAtFailedInstance(b: Builder, w: World, store: Store, draw: nat, k: nat)
    requires Allocated(b, store)
    requires k < BatchSize(b.count) && InstanceAt(b, w, draw)(k).Failure?
    requires forall j :: 0 <= j < k ==> InstanceAt(b, w, draw)(j).Success?
    ensures var r := Make(b, AMap([]), w, store, draw);
      && r.result == Failure(InstanceAt(b, w, draw)(k).error)
      && |r.events| == k
      && forall j :: 0 <= j < k ==> r.events[j] == Built(j, InstanceAt(b, w, draw)(j).value)
  {
    BatchStopsAtFailure(b.count, InstanceAt(b, w, draw), store[b.hooks], w, draw, k);
  }

  /** When every instance of the batch is made, what `make()` returns is
      what each instance's own callbacks make of it: it succeeds exactly when
      every instance's callbacks succeed on it, its instances are then the
      callbacks' results in order, and otherwise it throws what the first
      failing instance's callbacks threw. */
  lemma MakeAppliesCallbacks(b: Builder, w: World, store: Store, draw: nat)
    requires Allocated(b, store)
    requires forall k :: 0 <= k < BatchSize(b.count) ==> InstanceAt(b, w, draw)(k).Success?
    ensures var r := Make(b, AMap([]), w, store, draw);
      var n, hooks := BatchSize(b.count), store[b.hooks];
      && (r.result.Success? <==>
            forall k :: 0 <= k < n ==> ApplyHooks(InstanceAt(b, w, draw)(k).value, hooks, w, draw + k).0.Success?)
      && (r.result.Success? ==>
            |Instances(r.result.value)| == n &&
            forall k :: 0 <= k < n ==>
              Instances(r.result.value)[k] == ApplyHooks(InstanceAt(b, w, draw)(k).value, hooks, w, draw + k).0.value)
      && (r.result.Failure? ==>
            exists k :: 0 <= k < n &&
              ApplyHooks(InstanceAt(b, w, draw)(k).value, hooks, w, draw + k).0 == Failure(r.result.error) &&
              forall j :: 0 <= j < k ==> ApplyHooks(InstanceAt(b, w, draw)(j).value, hooks, w, draw + j).0.Success?)
  {
    BatchAppliesCallbacks(b.count, InstanceAt(b, w, draw), store[b.hooks], w, draw);
  }

  /** When the whole batch is made, the events are the `n` constructions in
      order followed by the callback calls in schedule order: call number
      `i * |hooks| + j` is callback `j` on instance `i`. A `make()` that
      returns made every call. */
  lemma MakeRunsCallbacksInstanceMajor(b: Builder, w: World, store: Store, draw: nat, i: nat, j: nat)
    requires Allocated(b, store)
    requires forall k :: 0 <= k < BatchSize(b.count) ==> InstanceAt(b, w, draw)(k).Success?
    requires Make(b, AMap([]), w, store, draw).result.Success?
    requires i < BatchSize(b.count) && j < |store[b.hooks]|
    ensures var r := Make(b, AMap([]), w, store, draw);
      var n, hooks := BatchSize(b.count), store[b.hooks];
      && |r.events| == n + CallIndex(n, |hooks|, 0)
      && (forall k :: 0 <= k < n ==> r.events[k] == Built(k, InstanceAt(b, w, draw)(k).value))
      && n + CallIndex(i, |hooks|, j) < |r.events|
      && r.events[n + CallIndex(i, |hooks|, j)] == Called(hooks[j], i)
  {
    BatchCallOrder(b.count, InstanceAt(b, w, draw), store[b.hooks], w, draw, i, j);
  }

  /** One bare instance sees each callback exactly once, in registration order. */
  lemma SingleInstanceCallbacks(b: Builder, w: World, store: Store, draw: nat)
    requires Allocated(b, store)
    requires Single(b.count)
    requires Make(b, AMap([]), w, store, draw).result.Success?
    ensures var r := Make(b, AMap([]), w, store, draw);
      r.result.value.One? && |r.events| == 1 + |store[b.hooks]| &&
      r.events[0] == Built(0, InstanceAt(b, w, draw)(0).value) &&
      forall j :: 0 <= j < |store[b.hooks]| ==> r.events[1 + j] == Called(store[b.hooks][j], 0)
  {
    var hooks := store[b.hooks];
    MakeCount(b, w, store, draw);
    forall j | 0 <= j < |hooks|
      ensures Make(b, AMap([]), w, store, draw).events[1 + j] == Called(hooks[j], 0)
    {
      MakeRunsCallbacksInstanceMajor(b, w, store, draw, 0, j);
      assert CallIndex(0, |hooks|, j) == j;
    }
    if |hooks| == 0 {
      var r := Make(b, AMap([]), w, store, draw);
      var (items, err) := Build(InstanceAt(b, w, draw), 1);
      BatchEvents(b.count, InstanceAt(b, w, draw), hooks, w, draw);
      assert |r.events| == 1;
    } else {
      MakeRunsCallbacksInstanceMajor(b, w, store, draw, 0, 0);
    }
  }

  /** The callbacks registered cannot change what is constructed: the
      construction events of two `make()` calls that differ only in their
      callback collections are the same, at the same positions. (The
      callbacks do change what `make()` returns; see MakeAppliesCallbacks.) */
  lemma ConstructionIgnoresCallbacks(b: Builder, attributes: Arg, w: World, s1: Store, s2: Store, draw: nat)
    requires Allocated(b, s1) && Allocated(b, s2)
    ensures var r1, r2 := Make(b, attributes, w, s1, draw), Make(b, attributes, w, s2, draw);
      forall k :: 0 <= k < |r1.events| && r1.events[k].Built? ==> k < |r2.events| && r2.events[k] == r1.events[k]
  {
    var b' := if IsEmpty(attributes) then b else State(b, attributes);
    ConstructionIgnoresHooks(b'.count, InstanceAt(b', w, draw), s1[b'.hooks], s2[b'.hooks], w, draw);
  }

  /** Every instance a builder makes is of one class: the one `className()`
      gives, or, when that fails, none is made. */
  lemma InstancesShareClass(b: Builder, w: World, draw: nat)
    ensures var cls := if ClassName(b, w).Success? then ClassName(b, w).value else "";
      forall k: nat :: InstanceAt(b, w, draw)(k).Success? ==> InstanceAt(b, w, draw)(k).value.cls == cls
  {
    forall k: nat ensures InstanceAt(b, w, draw)(k) == MakeInstance(b, w, draw + k) {
    }
  }

  /** `make()` without overrides returns instances of the factory's class. */
  lemma MakeBareKeepsClass(b: Builder, w: World, store: Store, draw: nat)
    requires Allocated(b, store) && CallbacksKeepClass(w)
    ensures var r := MakeBare(b, w, store, draw);
      r.result.Success? ==>
        ClassName(b, w).Success? &&
        forall k :: 0 <= k < |Instances(r.result.value)| ==> Instances(r.result.value)[k].cls == ClassName(b, w).value
  {
    var cls := if ClassName(b, w).Success? then ClassName(b, w).value else "";
    InstancesShareClass(b, w, draw);
    BatchKeepsClass(b.count, InstanceAt(b, w, draw), store[b.hooks], w, draw, cls);
    if MakeBare(b, w, store, draw).result.Success? {
      assert MakeInstance(b, w, draw + 0) == InstanceAt(b, w, draw)(0);
    }
  }

  /** `make()` returns instances of the factory's class
      (`Collection<int, TClass>|TClass`): constructed as `className()` says,
      and kept so by callbacks, which can change an object's state but not
      its class. */
  lemma MakeKeepsClass(b: Builder, attributes: Arg, w: World, store: Store, draw: nat)
    requires Allocated(b, store) && CallbacksKeepClass(w)
    ensures var r := Make(b, attributes, w, store, draw);
      r.result.Success? ==>
        ClassName(b, w).Success? &&
        forall k :: 0 <= k < |Instances(r.result.value)| ==> Instances(r.result.value)[k].cls == ClassName(b, w).value
  {
    var b' := if IsEmpty(attributes) then b else State(b, attributes);
    DerivedBuildersTargetSameClass(b, attributes, None, b.strategy, w);
    assert Make(b, attributes, w, store, draw) == MakeBare(b', w, store, draw);
    MakeBareKeepsClass(b', w, store, draw);
  }

  /** `make($attributes)` with empty attributes is `make()`, and with any
      other attributes (an array or a callable) it is
      `state($attributes)->make()`. */
  lemma MakeWithAttributesIsState(b: Builder, attributes: Arg, w: World, store: Store, draw: nat)
    requires Allocated(b, store)
    ensures IsEmpty(attributes) ==> Make(b, attributes, w, store, draw) == Make(b, AMap([]), w, store, draw)
    ensures !IsEmpty(attributes) ==>
      Make(b, attributes, w, store, draw) == Make(State(b, attributes), AMap([]), w, store, draw)
  {
  }

  /** A count of zero or less makes exactly what a null count makes. */
  lemma NonPositiveCountIsNull(b: Builder, w: World, store: Store, draw: nat)
    requires Allocated(b, store)
    requires b.count.Some? && b.count.value < 1
    ensures Make(b, AMap([]), w, store, draw) == Make(b.(count := None), AMap([]), w, store, draw)
  {
    MakeInstanceIgnoresCount(b, None, w, draw);
    BuildOne(InstanceAt(b, w, draw));
    BuildOne(InstanceAt(b.(count := None), w, draw));
  }

  /** `make($attributes)` with non-empty attributes is `state($attributes)`
      then `make()`; an array of overrides is the last layer, so it wins on
      every key it names and leaves every other key as the earlier layers
      had it. */
  lemma {:induction false} OverridesAreLastLayer(b: Builder, overrides: AttrMap, w: World, store: Store, draw: nat)
    requires Allocated(b, store)
    requires overrides != [] && WellKeyed(overrides)
    ensures Make(b, AMap(overrides), w, store, draw) == Make(State(b, AMap(overrides)), AMap([]), w, store, draw)
    ensures var def := w.definition(b.factory.name, draw);
      var before := RawAttributes(def, b.states, w, draw);
      var after := RawAttributes(def, State(b, AMap(overrides)).states, w, draw);
      (after.Success? <==> before.Success?) &&
      (after.Success? ==>
         forall k :: Lookup(after.value, k) ==
           if k in Keys(overrides) then Lookup(overrides, k) else Lookup(before.value, k))
  {
    var def := w.definition(b.factory.name, draw);
    if def.DefMap? {
      FoldAppend(def.m, b.states, Fixed(overrides), w, draw);
      var before := Fold(def.m, b.states, w, draw);
      if before.Success? {
        forall k
          ensures Lookup(Merge(before.value, overrides), k) ==
            if k in Keys(overrides) then Lookup(overrides, k) else Lookup(before.value, k)
        {
          MergeLookup(before.value, overrides, k);
        }
      }
    }
  }

  /** A strategy set with `useConstructionStrategy` belongs to that builder
      object only: `state()` and `count()` build a new object with the class
      default, and so does `make()` with overrides. */
  lemma DerivingForgetsStrategy(b: Builder, s: Strategy, state: Arg, n: Option<int>, w: World, store: Store, draw: nat)
    requires Allocated(b, store) && !IsEmpty(state)
    ensures State(UseConstructionStrategy(b, s), state).strategy == b.factory.defaultStrategy
    ensures Count(UseConstructionStrategy(b, s), n).strategy == b.factory.defaultStrategy
    ensures Make(UseConstructionStrategy(b, s), state, w, store, draw) ==
            Make(b.(strategy := b.factory.defaultStrategy), state, w, store, draw)
  {
  }

  /** Builders derived from one another share one callback collection: a
      callback added through the derived builder is run by the original. */
  lemma DerivedBuildersShareCallbacks(b: Builder, state: Arg, n: Option<int>, hook: nat, store: Store)
    requires Allocated(b, store)
    ensures var d := Count(State(b, state), n);
      var store' := AfterMaking(d, hook, store).1;
      Allocated(b, store') && store'[b.hooks] == store[b.hooks] + [hook]
  {
  }
}

=== FILE: has_universal_factory.dfy ===
/** The `HasUniversalFactory` trait: a model class answers a static call of
    the configured method name with a builder for itself. */
module HasUniversalFactory {
  import opened Wrappers
  import opened Attributes
  import opened Environment
  import opened Composer
  import opened Naming
  import opened Factory

  /** A model class using the trait: its name, and the factory class its
      `newFactory()` instantiates (`static::$factory`, or an override that
      returns that factory's `new()`), if any. */
  datatype ModelClass = ModelClass(name: string, factory: Option<string>)

  /** `newFactory()`: the declared factory's `new()`, or null when none is
      declared; naming a class that is not a factory fails. */
  function NewFactory(mc: ModelClass, w: World, store: Store): (r: Result<Option<(Builder, Store)>, Error>)
    ensures mc.factory.None? ==> r == Success(None)
    ensures mc.factory.Some? ==>
      (r.Success? <==> mc.factory.value in w.factories) &&
      (r.Success? ==> r.value == Some(New(w.factories[mc.factory.value], AMap([]), store)))
  {
    match mc.factory
    case None => Success(None)
    case Some(f) =>
      if f in w.factories then Success(Some(New(w.factories[f], AMap([]), store)))
      else Failure(ClassNotFound(f))
  }

  /** The count `getUniversalFactory` passes on: the first argument when it is
      numeric, null otherwise. */
  function CountArgument(count: Arg): Option<int> {
    if count.ANum? then Some(count.n) else None
  }

  /** The state `getUniversalFactory` passes on: the first argument when it
      is an array or a callable, the second one otherwise. */
  function StateArgument(count: Arg, state: Arg): Arg {
    if count.ACallable? || count.AMap? then count else state
  }

  /** `getUniversalFactory($count = null, $state = [])`. */
  function GetUniversalFactory(mc: ModelClass, count: Arg, state: Arg, cfg: Config, w: World, store: Store)
    : (r: Result<(Builder, Store), Error>)
    ensures r.Success? <==>
      if mc.factory.Some? then mc.factory.value in w.factories
      else ResolveFactoryName(mc.name, cfg, w.classes) in w.factories
    ensures r.Success? ==> Allocated(r.value.0, r.value.1)
    ensures r.Success? ==>
      r.value.0.factory == (if mc.factory.Some? then w.factories[mc.factory.value]
                            else w.factories[ResolveFactoryName(mc.name, cfg, w.classes)])
    ensures r.Success? ==> r.value.0.hooks == |store| && r.value.1 == store + [[]]
    ensures r.Success? ==> r.value.0.recycle == [] && r.value.0.strategy == r.value.0.factory.defaultStrategy
    ensures r.Success? ==> r.value.0.count == (if count.ANum? then Some(count.n) else None)
    ensures r.Success? ==>
      r.value.0.states == [Fixed([]), ToLayer(if count.ACallable? || count.AMap? then count else state)]
  {
    var base :- NewFactory(mc, w, store);
    var made :- if base.Some? then Success(base.value) else FactoryForClass(mc.name, cfg, w, store);
    var (factory, store') := made;
    Success((State(Count(factory, CountArgument(count)), StateArgument(count, state)), store'))
  }

  /** `__callStatic($method, $arguments)`: a call whose name is the configured one builds a
      factory from the first two arguments (defaults null and `[]`, extra
      arguments ignored); any other name is an unknown method. */
  function CallStatic(mc: ModelClass, name: string, args: seq<Arg>, cfg: Config, w: World, store: Store)
    : (r: Result<(Builder, Store), Error>)
    ensures name != cfg.methodName ==> r == Failure(BadMethodCall(name))
    ensures name == cfg.methodName ==>
      r == GetUniversalFactory(mc, if |args| > 0 then args[0] else ANull,
                               if |args| > 1 then args[1] else AMap([]), cfg, w, store)
  {
    if name == cfg.methodName then
      var count := if |args| > 0 then args[0] else ANull;
      var state := if |args| > 1 then args[1] else AMap([]);
      GetUniversalFactory(mc, count, state, cfg, w, store)
    else Failure(BadMethodCall(name))
  }

  /** Arguments after the second are ignored, and missing ones default to
      null and `[]`. */
  lemma CallStaticArguments(mc: ModelClass, name: string, args: seq<Arg>, cfg: Config, w: World, store: Store)
    ensures |args| >= 2 ==> CallStatic(mc, name, args, cfg, w, store) == CallStatic(mc, name, args[..2], cfg, w, store)
    ensures CallStatic(mc, name, [], cfg, w, store) == CallStatic(mc, name, [ANull, AMap([])], cfg, w, store)
    ensures |args| == 1 ==> CallStatic(mc, name, args, cfg, w, store) == CallStatic(mc, name, args + [AMap([])], cfg, w, store)
  {
  }

  /** A model that declares its factory gets it whatever the configuration
      and whatever the model is called: the factory-name resolution is only
      the fallback of `??`. */
  lemma DeclaredFactoryIgnoresResolution(m1: ModelClass, m2: ModelClass, count: Arg, state: Arg,
                                         c1: Config, c2: Config, w: World, store: Store)
    requires m1.factory.Some? && m2.factory == m1.factory
    ensures GetUniversalFactory(m1, count, state, c1, w, store) == GetUniversalFactory(m2, count, state, c2, w, store)
  {
  }

  /** `Model::factory(['name' => ...])`: one builder, no count, the overrides
      as its last layer; the second argument is ignored. */
  lemma ArrayFirstArgumentIsState(mc: ModelClass, m: AttrMap, extra: Arg, cfg: Config, w: World, store: Store)
    requires GetUniversalFactory(mc, AMap(m), extra, cfg, w, store).Success?
    ensures var b := GetUniversalFactory(mc, AMap(m), extra, cfg, w, store).value.0;
      b.count.None? && b.states == [Fixed([]), Fixed(m)]
  {
  }

  /** `Model::factory(5, $state)`: a count of five and `$state` appended. */
  lemma NumericFirstArgumentIsCount(mc: ModelClass, n: int, state: Arg, cfg: Config, w: World, store: Store)
    requires GetUniversalFactory(mc, ANum(n), state, cfg, w, store).Success?
    ensures var b := GetUniversalFactory(mc, ANum(n), state, cfg, w, store).value.0;
      b.count == Some(n) && b.states == [Fixed([]), ToLayer(state)]
  {
  }

  /** The raw attributes of a definition overridden by one array: each key
      the array names reads the array's value, every other key the
      definition's. */
  lemma ArrayOverRaw(def: AttrMap, m: AttrMap, w: World, draw: nat, k: string)
    requires WellKeyed(m)
    ensures var raw := RawAttributes(DefMap(def), [Fixed([]), Fixed(m)], w, draw);
      raw.Success? && Lookup(raw.value, k) == if k in Keys(m) then Lookup(m, k) else Lookup(def, k)
  {
    var layers := [Fixed([]), Fixed(m)];
    assert AllFixed(layers) by {
      assert WellKeyed([]);
    }
    FoldFixedLookup(def, layers, w, draw, k);
    assert layers[..1] == [Fixed([])] && [Fixed([])][..0] == [];
    assert LastWriter(def, layers, k) == if k in Keys(m) then Lookup(m, k) else Lookup(def, k);
  }

  /** `Model::factory(['name' => ...])`, end to end: the call succeeds exactly
      when the model's factory class exists, and the builder's raw attributes
      are the definition overridden by the array: each key the array names
      reads the array's value, every other key the definition's. */
  lemma {:induction false} ArrayArgumentOverridesDefinition(mc: ModelClass, m: AttrMap, cfg: Config, w: World, store: Store, draw: nat, k: string)
    requires WellKeyed(m)
    ensures var r := CallStatic(mc, cfg.methodName, [AMap(m)], cfg, w, store);
      r.Success? <==>
        if mc.factory.Some? then mc.factory.value in w.factories
        else ResolveFactoryName(mc.name, cfg, w.classes) in w.factories
    ensures var r := CallStatic(mc, cfg.methodName, [AMap(m)], cfg, w, store);
      r.Success? && w.definition(r.value.0.factory.name, draw).DefMap? ==>
        var def := w.definition(r.value.0.factory.name, draw);
        var raw := RawAttributes(def, r.value.0.states, w, draw);
        raw.Success? &&
        Lookup(raw.value, k) == if k in Keys(m) then Lookup(m, k) else Lookup(def.m, k)
  {
    var r := CallStatic(mc, cfg.methodName, [AMap(m)], cfg, w, store);
    if r.Success? {
      var b := r.value.0;
      var def := w.definition(b.factory.name, draw);
      assert b.states == [Fixed([]), Fixed(m)];
      if def.DefMap? {
        ArrayOverRaw(def.m, m, w, draw, k);
      }
    }
  }
}

=== FILE: naming.dfy ===
/** Factory-name resolution: from a model class name to the name of the
    factory class that builds it. */
module Naming {
  import opened Wrappers
  import opened Environment

  /** `class_basename`: the part of a class name after its last backslash. */
  function ClassBasename(name: string): (r: string)
    ensures '\\' !in r
    ensures |r| <= |name| && name[|name| - |r|..] == r
    ensures |r| < |name| ==> name[|name| - |r| - 1] == '\\'
    decreases |name|
  {
    if |name| == 0 || name[|name| - 1] == '\\' then ""
    else
      var r := ClassBasename(name[..|name| - 1]) + [name[|name| - 1]];
      assert name[|name| - |r|..] == name[..|name| - 1][|name| - |r|..] + [name[|name| - 1]];
      r
  }

  /** The names the default resolver tries, in order: the short name in the
      factories' namespace, the same with a `Factory` suffix, and the full
      class name with a `Factory` suffix. */
  function Candidates(className: string, namespace: string): seq<string> {
    var short := ClassBasename(className);
    [namespace + short, namespace + short + "Factory", className + "Factory"]
  }

  /** The position of the first name that exists, if any. */
  function FirstExisting(names: seq<string>, classes: set<string>): (r: Option<nat>)
    ensures r.Some? ==> r.value < |names| && names[r.value] in classes
    ensures r.Some? ==> forall j :: 0 <= j < r.value ==> names[j] !in classes
    ensures r.None? ==> forall j :: 0 <= j < |names| ==> names[j] !in classes
    decreases |names|
  {
    if |names| == 0 then None
    else if names[0] in classes then Some(0)
    else
      match FirstExisting(names[1..], classes)
      case None => None
      case Some(i) => Some(i + 1)
  }

  /** `resolveFactoryName`: the configured resolver when there is one;
      otherwise the ordered fallback, which never fails. */
  function ResolveFactoryName(className: string, cfg: Config, classes: set<string>): (r: string)
    ensures cfg.factoryNameResolver.Some? ==> r == cfg.factoryNameResolver.value(className)
    ensures cfg.factoryNameResolver.None? ==>
      r in classes || r == cfg.namespace + ClassBasename(className) + "Factory"
  {
    if cfg.factoryNameResolver.Some? then cfg.factoryNameResolver.value(className)
    else
      var short := ClassBasename(className);
      var factoryClass := cfg.namespace + short;
      if factoryClass in classes then factoryClass
      else
        var factoryClassWithSuffix := cfg.namespace + short + "Factory";
        if factoryClassWithSuffix in classes then factoryClassWithSuffix
        else
          var sameNamespaceFactory := className + "Factory";
          if sameNamespaceFactory in classes then sameNamespaceFactory
          else cfg.namespace + short + "Factory"
  }

  /** The default resolver returns the first candidate that exists, and the
      suffixed name in the factories' namespace when none does. */
  lemma DefaultResolverPicksFirstExisting(className: string, cfg: Config, classes: set<string>)
    requires cfg.factoryNameResolver.None?
    ensures var cands := Candidates(className, cfg.namespace);
      ResolveFactoryName(className, cfg, classes) ==
        match FirstExisting(cands, classes)
        case Some(i) => cands[i]
        case None => cands[1]
  {
    var cands := Candidates(className, cfg.namespace);
    var r := FirstExisting(cands, classes);
    if r.Some? {
      assert r.value == 0 || r.value == 1 || r.value == 2;
      assert r.value > 0 ==> cands[0] !in classes;
      assert r.value > 1 ==> cands[1] !in classes;
    } else {
      assert cands[0] !in classes && cands[1] !in classes && cands[2] !in classes;
    }
  }

  /** The short name of a qualified name is everything after the last
      separator. */
  lemma {:induction false} BasenameAfterSeparator(prefix: string, short: string)
    requires '\\' !in short
    ensures ClassBasename(prefix + "\\" + short) == short
    decreases |short|
  {
    var name := prefix + "\\" + short;
    if |short| > 0 {
      var init := short[..|short| - 1];
      assert name[..|name| - 1] == prefix + "\\" + init;
      BasenameAfterSeparator(prefix, init);
      assert short == init + [short[|short| - 1]];
    }
  }

  /** The resolution the tests rely on: a model whose factory sits beside it
      in its own namespace (`Tests\\Examples\\UserInfoFactory` for
      `Tests\\Examples\\UserInfo`), with nothing of that short name in the
      factories' namespace. */
  lemma SameNamespaceFactoryFound(prefix: string, short: string, cfg: Config, classes: set<string>)
    requires cfg.factoryNameResolver.None? && '\\' !in short
    requires cfg.namespace + short !in classes && cfg.namespace + short + "Factory" !in classes
    requires prefix + "\\" + short + "Factory" in classes
    ensures ResolveFactoryName(prefix + "\\" + short, cfg, classes) == prefix + "\\" + short + "Factory"
  {
    BasenameAfterSeparator(prefix, short);
  }
}

=== FILE: scenarios.dfy ===
/** A worked example: a `Point(x, y)` class built by reflection from the
    definition `['x' => 0, 'y' => 0]`. */
module Scenarios {
  import opened Wrappers
  import opened Attributes
  import opened Environment
  import opened Composer
  import opened Factory
  import opened Callbacks
  import opened Batch
  import opened HasUniversalFactory

  const PointFactory := FactoryClass("PointFactory", Some("Point"), ReflectionBased)

  const Origin: AttrMap := [("x", Data(0)), ("y", Data(0))]

  /** Generator 0 reads `y` from the attributes it is given and adds one. */
  function YPlusOne(v: Value, current: AttrMap, draw: nat): Result<Value, Error> {
    match Lookup(current, "y")
    case Some(Data(n)) => Success(Data(n + 1))
    case _ => Failure(Raised("y is not a number"))
  }

  function PointWorld(): World {
    World(
      {"Point"},
      map["Point" := ["x", "y"]],
      {},
      {},
      map["PointFactory" := PointFactory],
      (name: string, draw: nat) => DefMap(Origin),
      (id: nat, carry: AttrMap, draw: nat) => Failure(Raised("no callable states")),
      (id: nat, def: nat, draw: nat) => None,
      YPlusOne,
      (id: nat, draw: nat) => Failure(Raised("no nested factories")),
      (name: string) => None,
      (i: Instance) => None,
      (h: nat, i: Instance, d: nat) => Success(i)
    )
  }

  /** Constructing `Point` by reflection from `x` and `y`. */
  lemma PointConstructed(b: Builder, x: Value, y: Value)
    requires b.factory == PointFactory && b.strategy == ReflectionBased
    ensures NewClass(b, [("x", x), ("y", y)], PointWorld()) == Success(Constructed("Point", [x, y]))
  {
    var raw := [("x", x), ("y", y)];
    assert Lookup(raw, "x") == Some(x) && Lookup(raw, "y") == Some(y);
    assert ResolveClassParameters(["x", "y"], raw) == [x, y];
  }

  /** A `Point` builder whose raw attributes are `raw`, all plain data,
      constructs `Point(x, y)`. */
  lemma MakesPointInstance(b: Builder, raw: AttrMap, x: Value, y: Value)
    requires b.factory == PointFactory && b.strategy == ReflectionBased
    requires Fold(Origin, b.states, PointWorld(), 0) == Success(raw)
    requires raw == [("x", x), ("y", y)] && IsPlain(x) && IsPlain(y)
    ensures MakeInstance(b, PointWorld(), 0) == Success(Constructed("Point", [x, y]))
  {
    var w := PointWorld();
    assert RawAttributes(w.definition(b.factory.name, 0), b.states, w, 0) == Success(raw);
    PlainAttributesExpandToThemselves(raw, w, 0);
    PointConstructed(b, x, y);
  }

  /** What the single-instance path returns for such a builder when no
      callbacks are registered. */
  lemma MakesPoint(b: Builder, store: Store, raw: AttrMap, x: Value, y: Value)
    requires b.factory == PointFactory && b.count.None? && b.strategy == ReflectionBased
    requires Allocated(b, store) && store[b.hooks] == []
    requires Fold(Origin, b.states, PointWorld(), 0) == Success(raw)
    requires raw == [("x", x), ("y", y)] && IsPlain(x) && IsPlain(y)
    ensures var p := Constructed("Point", [x, y]);
      Make(b, AMap([]), PointWorld(), store, 0) == Run(Success(One(p)), [Built(0, p)])
  {
    var p := Constructed("Point", [x, y]);
    MakesPointInstance(b, raw, x, y);
    assert Make(b, AMap([]), PointWorld(), store, 0) == MakeBatch(b.count, InstanceAt(b, PointWorld(), 0), [], PointWorld(), 0);
    SingleWithoutHooks(b.count, InstanceAt(b, PointWorld(), 0), PointWorld(), 0);
  }

  /** `Point::factory()->make()`, for a `Point` model declaring
      `PointFactory` as its factory, builds the origin. */
  lemma DefaultsMakeOrigin(cfg: Config)
    ensures var r := CallStatic(ModelClass("Point", Some("PointFactory")), cfg.methodName, [], cfg, PointWorld(), []);
      var origin := Constructed("Point", [Data(0), Data(0)]);
      r.Success? &&
      Make(r.value.0, AMap([]), PointWorld(), r.value.1, 0) == Run(Success(One(origin)), [Built(0, origin)])
  {
    var w := PointWorld();
    var r := CallStatic(ModelClass("Point", Some("PointFactory")), cfg.methodName, [], cfg, w, []);
    assert "PointFactory" in w.factories;
    var (b, store) := r.value;
    assert b.states == [Fixed([]), Fixed([])];
    assert Merge(Origin, []) == Origin;
    assert Fold(Origin, [Fixed([])], w, 0) == Success(Origin);
    assert Fold(Origin, b.states, w, 0) == Success(Origin);
    MakesPoint(b, store, Origin, Data(0), Data(0));
  }

  /** `make(['x' => 5])`, like `state(['x' => 5])->make()`, overrides `x`
      and keeps `y`. */
  lemma StateOverridesOneKey()
    ensures var (b, store) := New(PointFactory, AMap([]), []);
      var p := Constructed("Point", [Data(5), Data(0)]);
      Make(b, AMap([("x", Data(5))]), PointWorld(), store, 0) == Run(Success(One(p)), [Built(0, p)])
    ensures var (b, store) := New(PointFactory, AMap([]), []);
      var b5 := State(b, AMap([("x", Data(5))]));
      var p := Constructed("Point", [Data(5), Data(0)]);
      Make(b5, AMap([]), PointWorld(), store, 0) == Run(Success(One(p)), [Built(0, p)])
  {
    var (b, store) := New(PointFactory, AMap([]), []);
    var b5 := State(b, AMap([("x", Data(5))]));
    var raw := [("x", Data(5)), ("y", Data(0))];
    assert Merge(Origin, [("x", Data(5))]) == raw;
    assert Merge(Origin, []) == Origin;
    assert b5.states == [Fixed([]), Fixed([("x", Data(5))])];
    assert b5.states[1..] == [Fixed([("x", Data(5))])];
    assert Fold(Origin, [Fixed([("x", Data(5))])], PointWorld(), 0) == Success(raw);
    assert Fold(Origin, b5.states, PointWorld(), 0) == Success(raw);
    MakesPoint(b5, store, raw, Data(5), Data(0));
    MakeWithAttributesIsState(b, AMap([("x", Data(5))]), PointWorld(), store, 0);
  }

  /** The generator `fn ($a) => $a['y'] + 1` invoked on `['x' => it, 'y' => 0]`. */
  lemma GeneratorStep()
    ensures ExpandValue(Gen(0), [("x", Gen(0)), ("y", Data(0))], PointWorld(), 0) == Success(Data(1))
  {
    assert Lookup([("x", Gen(0)), ("y", Data(0))], "y") == Some(Data(0));
  }

  /** The two expansion steps of `['x' => fn ($a) => $a['y'] + 1, 'y' => 0]`. */
  lemma SiblingSteps()
    ensures ExpandedFrom([("x", Gen(0)), ("y", Data(0))], [("x", Data(1)), ("y", Data(0))], 0, PointWorld(), 0)
  {
    var raw := [("x", Gen(0)), ("y", Data(0))];
    var out := [("x", Data(1)), ("y", Data(0))];
    assert out[..0] + raw[0..] == raw;
    assert out[..1] + raw[1..] == out;
    GeneratorStep();
    assert ExpandValue(Data(0), out, PointWorld(), 0) == Success(Data(0));
  }

  /** `state(['x' => fn ($a) => $a['y'] + 1])`: the generator reads its
      sibling `y` and the expanded attributes hold its result. */
  lemma GeneratorReadsSibling()
    ensures var raw := [("x", Gen(0)), ("y", Data(0))];
      ExpandAttributes(raw, PointWorld(), 0) == Success([("x", Data(1)), ("y", Data(0))])
  {
    SiblingSteps();
    ExpandFromComplete([("x", Gen(0)), ("y", Data(0))], [("x", Data(1)), ("y", Data(0))], 0, PointWorld(), 0);
  }

  /** A callback that draws randomness, like the one the test suite's
      `UserInfoFactory::configure` registers: it throws at draw 1 and passes
      at any other draw. */
  function UnluckyWorld(): World {
    PointWorld().(callback := (h: nat, i: Instance, d: nat) => if d == 1 then Failure(Raised("unlucky")) else Success(i))
  }

  /** The rounds of a batch of two equal points under `UnluckyWorld`:
      instance 0's callback passes, instance 1's throws. */
  lemma UnluckyRounds(p: Instance)
    ensures RunRounds([p, p], 2, [0], UnluckyWorld(), 0) == ([p, p], 2, Some(Raised("unlucky")))
  {
    var w := UnluckyWorld();
    assert Round(0, [0]) == [(0, 0)];
    assert Round(1, [0]) == [(0, 1)];
    assert RunCalls([p, p], [(0, 0)], w, 0) == ([p, p], 1, None) by {
      assert [(0, 0)][1..] == [];
      assert [p, p][0 := p] == [p, p];
    }
    assert RunCalls([p, p], [(0, 1)], w, 0) == ([p, p], 1, Some(Raised("unlucky")));
    assert RunRounds([p, p], 1, [0], w, 0) == ([p, p], 1, None);
  }

  /** The schedule of two instances and one callback. */
  lemma TwoByOneSchedule()
    ensures Schedule(2, [0]) == [(0, 0), (0, 1)]
  {
    assert Round(0, [0]) == [(0, 0)];
    assert Round(1, [0]) == [(0, 1)];
    assert Schedule(1, [0]) == [] + Round(0, [0]);
  }

  /** A maker whose every instance is `p`. */
  function Always(p: Instance): Maker {
    (k: nat) => Success(p)
  }

  /** A batch of two from a maker that always gives `p`. */
  lemma TwoEqualInstances(p: Instance)
    ensures Build(Always(p), 2) == ([p, p], None)
  {
    BuildOne(Always(p));
    assert Always(p)(0) == Success(p) && Always(p)(1) == Success(p);
    assert Build(Always(p), 1) == ([p], None);
    assert [p] + [p] == [p, p];
  }

  /** Two instances made equal still meet their callbacks independently:
      the first instance's callback passes, the second one's throws, and
      `make()` throws after both calls. */
  lemma SecondInstanceCallbackThrows()
    ensures var p := Constructed("Point", [Data(0), Data(0)]);
      MakeBatch(Some(2), Always(p), [0], UnluckyWorld(), 0) ==
        Run(Failure(Raised("unlucky")), [Built(0, p), Built(1, p), Called(0, 0), Called(0, 1)])
  {
    var p := Constructed("Point", [Data(0), Data(0)]);
    TwoEqualInstances(p);
    UnluckyRounds(p);
    TwoByOneSchedule();
    assert BuiltEvents([p, p]) == [Built(0, p), Built(1, p)];
    assert CalledEvents([(0, 0), (0, 1)][..2]) == [Called(0, 0), Called(0, 1)];
  }
}

=== FILE: wrappers.dfy ===
/** Failure-compatible wrappers used throughout the model: `Option` for PHP's
    nullable values and `Result` for operations that can throw. */
module Wrappers {

  datatype Option<+T> = None | Some(value: T) {

    predicate IsFailure() {
      None?
    }

    function PropagateFailure<U>(): Option<U>
      requires None?
    {
      None
    }

    function Extract(): T
      requires Some?
    {
      value
    }

    /** PHP's `$x ?? $default`. */
    function GetOr(default: T): T {
      match this
      case Some(v) => v
      case None => default
    }
  }

  datatype Result<+R, +E> = Success(value: R) | Failure(error: E) {

    predicate IsFailure() {
      Failure?
    }

    function PropagateFailure<U>(): Result<U, E>
      requires Failure?
    {
      Failure(error)
    }

    function Extract(): R
      requires Success?
    {
      value
    }
  }
}
